=== FILE: README.md ===
# expenses-app server: request validation and ownership, in Dafny

This project models the resolver layer of the expenses-app GraphQL server, a
service where users sign up, sign in and keep a private list of expenses. It
covers the checks each resolver runs before it reads or writes, in the order it
runs them, and the helpers those checks use:

- the title and date sanitisers (`expenseTitleSanitize`, `expenseDateSanitize`);
- the password policy in front of bcrypt (`hashPassword`);
- credential extraction and bearer-token verification (`getUserId`);
- the account guard (`userExists`);
- the catch block that turns unexpected errors into `InternalError` (`errorHandlerWrapper`);
- the error catalogue and its messages (`errorsList`);
- the mutations `signUp`, `signIn`, `updateUser`, `deleteUser`, `createExpense`,
  `updateExpense` and `deleteExpense`;
- the queries `me`, `expense` and `expenses`.

The Prisma backend is an immutable `Store` holding two maps, users and
expenses, plus the counter fresh ids are drawn from. `exists` queries become
predicates over those maps, and writes become map updates. Deleting a user
also deletes the expenses it owns. Each resolver is a pure function
`Store × request × arguments → Result<(Store, output), Error>`, and the first
failing check decides the error.

The foreign libraries are fields of a `Lib` record of total functions:
- JavaScript's whitespace class used by `trim`;
- `validator.isEmail`;
- moment's date validity;
- bcrypt's hash and compare;
- jwt's sign and verify.

`Sound(lib)` says what the resolvers rely on: a password matches its own hash,
and a token verifies to the user it was issued for. `ExactMatch(lib)` says that,
among passwords of at most 72 UTF-8 bytes (bcrypt ignores any byte past the
72nd) that hold no U+0000, no password matches another password's hash. Only
one finding uses it.

String lengths are JavaScript's `length`: UTF-16 code units, so a character above
U+FFFF counts as two (`Utf16Length`).

The model follows the code as written, including these points that a reader of
the resolvers might not expect:
- `createExpense` sanitises the title, trims the description and sanitises the
  date before the duplicate check. The duplicate check looks for the raw,
  untrimmed title.
- A user's name is stored as given, not trimmed.
- `updateExpense` writes a given description as given, not trimmed.
- `signIn`, `updateUser` and `deleteUser` do not check that the account exists.
  They are modelled as written, and corrected under "## Findings".
- `updateExpense`'s duplicate check also matches the expense being updated.
  It is modelled as written, and corrected under "## Findings".

One point departs from the code as written. `errorsList.js` exports only five
errors, yet the resolvers also throw `InvalidExpenseTitleError`,
`InvalidDateError`, `DuplicatedExpenseTitleError`, `ExpenseNotFoundError` and
`UserNotFoundError`. The model throws these intended errors, with the messages
the server's tests expect (server/tests/expense.test.js and
server/tests/user.test.js). "## Left out" says what the code does instead.

## Model

| member | source | states |
|---|---|---|
| Strings.Trim | server/src/utils/sanitizeData.js:7 | `trim` yields a string with no whitespace at either end, no longer than its input |
| Strings.TrimInfix | server/src/utils/sanitizeData.js:7 | the trimmed string is the input with a whitespace-only prefix and suffix cut off, and nothing else removed |
| Strings.TrimIdempotent | server/src/utils/sanitizeData.js:7 | trimming a trimmed string changes nothing |
| Strings.TrimFixedIff | server/src/utils/sanitizeData.js:7 | a string is its own trim exactly when it neither starts nor ends with whitespace |
| Strings.TrimPadding | server/src/utils/hashPassword.js:6 | whitespace added around a string does not change its trim |
| Strings.Utf16Length | server/src/utils/sanitizeData.js:8 | JavaScript's `length` counts UTF-16 code units: it equals the number of characters exactly when none lies above U+FFFF, and is twice it exactly when all do |
| Strings.TrimUtf16Length | server/src/utils/hashPassword.js:6-7 | trimming never makes a string longer in UTF-16 code units |
| Strings.Utf8Length | server/src/utils/hashPassword.js:10 | the UTF-8 byte length bcrypt hashes: the number of characters exactly when all are ASCII, and at most four bytes per character |
| Strings.TrimUtf8Length | server/src/utils/hashPassword.js:6-10 | trimming never makes a string longer in UTF-8 bytes |
| Strings.IndexOfFrom | server/src/utils/getUserId.js:11 | finds the first occurrence of the pattern at or after a position; none is skipped |
| Strings.RemoveFirst | server/src/utils/getUserId.js:11 | `replace` with a string pattern leaves a string without an occurrence unchanged |
| Strings.RemoveFirstAt | server/src/utils/getUserId.js:11 | `replace` with a string pattern removes only the first occurrence, keeping the text on both sides |
| Strings.RemoveLeadingOccurrence | server/src/utils/getUserId.js:11 | removing "Bearer " from "Bearer " + t gives back t, even when t itself contains "Bearer " |
| Seqs.Filter | server/src/resolvers/queries/expense.js:33-39 | the `where` filter keeps exactly the elements satisfying the condition, no more than the input holds, and none when none satisfies it |
| Seqs.FilterConcat | server/src/resolvers/queries/expense.js:33-39 | filtering distributes over concatenation: the order of the input and every occurrence of a kept element are preserved |
| Seqs.FilterKeepsIncreasing | server/src/resolvers/queries/expense.js:33-39 | a list in strictly increasing key order stays so after filtering |
| Seqs.Page | server/src/resolvers/queries/expense.js:29-31 | `skip`/`first` paging returns the window starting at `skip`, at most `first` long, and only elements of the input |
| Seqs.PageKeepsIncreasing | server/src/resolvers/queries/expense.js:29-31 | a page of a list in strictly increasing key order is in strictly increasing key order |
| Errors.MessageHasLength | server/src/utils/errorsList.js:3-21 | each catalogued error and the login error carry one fixed message, of a known length |
| Errors.FixedMessagesDistinct | server/src/utils/errorsList.js:3-21 | two different fixed-message errors never carry the same message |
| ErrorHandler.Surface | server/src/utils/errorHandlerWrapper.js:6-11 | values pass unchanged; an error with a `path` becomes `InternalError`; any other error passes unchanged; nothing with a `path` reaches the caller |
| ErrorHandler.ErrorHandlerWrapper | server/src/utils/errorHandlerWrapper.js:5-12 | the wrapped resolver's value is returned unchanged, errors are routed as by `Surface` |
| ErrorHandler.SurfaceIdempotent | server/src/utils/errorHandlerWrapper.js:9-11 | wrapping an already wrapped outcome changes nothing |
| ErrorHandler.BackendDetailHidden | server/src/utils/errorHandlerWrapper.js:9 | any two backend failures reach the caller with the same generic message, whatever their detail |
| ErrorHandler.FixedMessageErrorsPassThrough | server/src/utils/errorHandlerWrapper.js:11 | catalogued errors and the login error reach the caller unchanged |
| Sanitize.SanitizeTitle | server/src/utils/sanitizeData.js:6-11 | a title is accepted exactly when its trim is at least 2 UTF-16 code units long; the result is the trim; otherwise `InvalidExpenseTitle` |
| Sanitize.SanitizeDate | server/src/utils/sanitizeData.js:13-18 | a date is accepted exactly when its trim is a valid date; the result is the trim; otherwise `InvalidDate` |
| Sanitize.SingleCharacterTitle | server/src/utils/sanitizeData.js:7-8 | a one-character title is accepted exactly when the character is not whitespace and lies above U+FFFF, where `length` is 2; "a" is rejected |
| Sanitize.SanitizeTitleIdempotent | server/src/utils/sanitizeData.js:6-11 | sanitising an accepted title again returns it unchanged |
| Sanitize.SanitizeTitleIgnoresPadding | server/src/utils/sanitizeData.js:7-8 | surrounding whitespace changes neither acceptance nor the sanitised title |
| Sanitize.SanitizeDateIdempotent | server/src/utils/sanitizeData.js:13-18 | sanitising an accepted date again returns it unchanged |
| Sanitize.SanitizeDateVerbatim | server/src/utils/sanitizeData.js:14-17 | a valid, already trimmed date is returned character for character, with no normalisation |
| Sanitize.InvalidTitleMessageStatesThreshold | server/src/utils/sanitizeData.js:8 | the invalid-title message names the same 2-character minimum the sanitiser enforces |
| Password.HashPassword | server/src/utils/hashPassword.js:5-11 | accepted exactly when the trimmed password is at least 8 UTF-16 code units long; the hash is of the trimmed text and the trimmed text matches it |
| Password.PaddedShortPasswordRejected | server/src/utils/hashPassword.js:6-7 | a password shorter than 8 UTF-16 code units, padded with whitespace, is still rejected |
| Password.EightCharacterPasswordAccepted | server/src/utils/hashPassword.js:7-10 | a trimmed password of exactly 8 characters is accepted |
| Password.FourAstralCharacterPasswordAccepted | server/src/utils/hashPassword.js:7 | four characters above U+FFFF make a password of JavaScript length 8, which is accepted |
| Password.HashIgnoresPadding | server/src/utils/hashPassword.js:6-10 | whitespace around a password does not change the outcome, and the same text is hashed |
| Password.InvalidPasswordMessageStatesThreshold | server/src/utils/errorsList.js:15-17 | the invalid-password message names the same 8-character minimum `hashPassword` enforces |
| Auth.VerifyHeader | server/src/utils/getUserId.js:10-13 | the header with its first "Bearer " removed is verified; the verified user id is returned, a rejection is reported |
| Auth.GetUserId | server/src/utils/getUserId.js:5-19 | no credential: login error when required, null otherwise; with a credential, success exactly when the token library verifies the header minus its first "Bearer ", carrying the verified id, and otherwise the library's rejection |
| Auth.Authenticate | server/src/utils/getUserId.js:5 | agrees with `getUserId` under its default `requiredAuth = true` |
| Auth.BearerTokenRoundTrip | server/src/utils/getUserId.js:10-13 | a token issued for a user, sent as a bearer header, identifies that user |
| Auth.HttpHeaderWins | server/src/utils/getUserId.js:6-8 | for an HTTP request the connection context is never consulted |
| Auth.ConnectionCredentialUsed | server/src/utils/getUserId.js:6-8 | without an HTTP request the connection's credential is used like a header |
| Auth.EmptyCredentialIsAbsent | server/src/utils/getUserId.js:10 | an empty credential behaves exactly like a missing one |
| Auth.OptionalAuthSkipsVerify | server/src/utils/getUserId.js:16-18 | with optional authentication and no credential the result is null, whatever the token library would do |
| Backend.PutKeepsTitlesUnique | server/src/resolvers/mutations/expense.js:59-66 | writing an expense keeps titles unique per owner exactly when none of the owner's other expenses has its title |
| Backend.InsertUser | server/src/resolvers/mutations/user.js:20-29 | exactly one user is added, under a fresh id, with the given fields |
| Backend.InsertExpense | server/src/resolvers/mutations/expense.js:36-41 | exactly one expense is added, under a fresh id, connected to its owner |
| Backend.ReplaceExpense | server/src/resolvers/mutations/expense.js:72-80 | only the record under the id changes; the store stays well formed when id and owner are kept |
| Backend.DeleteUserCascade | server/src/resolvers/mutations/user.js:90 | the user goes, with exactly the expenses it owned; everything else is kept |
| Backend.ExpensesFrom | server/src/resolvers/queries/expense.js:41 | lists every stored expense and only stored expenses, in strictly increasing id order, so each appears once |
| Backend.UserIdByEmailFrom | server/src/resolvers/mutations/user.js:39-46 | finds the first user id with the email, no earlier id having it, or reports that none has it |
| Backend.UserByEmail | server/src/resolvers/mutations/user.js:39-46 | null exactly when no user has the email; with unique emails, the user that has it |
| Validations.UserExists | server/src/utils/validations.js:3-9 | succeeds exactly when a user has the id, fails with `UserNotFound` otherwise |
| Validations.UserExistsDependsOnlyOnPresence | server/src/utils/validations.js:4-6 | the outcome depends only on whether the id is a user id |
| UserMutations.SignUp | server/src/resolvers/mutations/user.js:13-35 | email format, then email uniqueness, then the password policy; on success one user is added with the hash of the trimmed password, a token for its id is returned, and email uniqueness is kept |
| UserMutations.SignIn | server/src/resolvers/mutations/user.js:37-55 | as written: an unknown email crashes on `user.password`; otherwise success exactly when the raw password matches the stored hash, returning that user and a token for it |
| UserMutations.CheckNewEmail | server/src/resolvers/mutations/user.js:61-70 | a given email must be well formed, then not held by another user; an absent email passes |
| UserMutations.HashIfGiven | server/src/resolvers/mutations/user.js:72-73 | a given password goes through `hashPassword`; an absent one is left alone |
| UserMutations.UpdateUser | server/src/resolvers/mutations/user.js:57-86 | email checks precede password hashing; only the caller's record changes; absent fields keep their value; email uniqueness is kept; a missing account fails in the backend |
| UserMutations.DeleteUser | server/src/resolvers/mutations/user.js:88-91 | only the caller's user goes, with exactly its expenses; a missing account fails in the backend |
| UserQueries.Me | server/src/resolvers/queries/user.js:4-16 | login error without a credential, `UserNotFound` for a deleted account; otherwise the caller's own user, and the store is unchanged |
| ExpenseMutations.CreateExpense | server/src/resolvers/mutations/expense.js:11-42 | as written: auth, title, date, then a duplicate check on the raw title; on success one expense with trimmed title, description and date, the given amount and the caller as owner |
| ExpenseMutations.UpdateExpense | server/src/resolvers/mutations/expense.js:44-54 | ownership is checked first: an absent or foreign id gives `ExpenseNotFound` before any other check |
| ExpenseMutations.UpdateOwned | server/src/resolvers/mutations/expense.js:56-80 | title, then duplicate, then date; on success only that expense changes, id and owner are kept, absent fields keep their value |
| ExpenseMutations.CheckTitle | server/src/resolvers/mutations/expense.js:56-67 | a given title is sanitised and must not be the title of any of the caller's expenses |
| ExpenseMutations.SanitizeDateGiven | server/src/resolvers/mutations/expense.js:69-70 | a given date is sanitised; an absent one is left alone |
| ExpenseMutations.DeleteExpense | server/src/resolvers/mutations/expense.js:83-103 | an absent or foreign id gives `ExpenseNotFound`; otherwise exactly that expense is removed, and title uniqueness is kept |
| ExpenseMutations.UpdateExpenseKeepsTitlesUnique | server/src/resolvers/mutations/expense.js:56-67 | a successful update keeps every owner's titles distinct |
| ExpenseQueries.ExpenseById | server/src/resolvers/queries/expense.js:5-23 | login error without a credential; the expense is returned exactly when the caller owns it, `ExpenseNotFound` otherwise |
| ExpenseQueries.Expenses | server/src/resolvers/queries/expense.js:25-42 | every listed expense is stored, owned by the caller and, for a non-empty query, has a title containing it; at most `limit` are listed, in increasing id order |
| ExpenseQueries.ExpensesComplete | server/src/resolvers/queries/expense.js:33-39 | without paging, every expense the caller owns whose title matches is listed |
| ExpenseQueries.ExpensesPageIsWindow | server/src/resolvers/queries/expense.js:29-31 | a page is the unpaged listing from `skip` on, at most `limit` long |
| ExpenseQueries.DeletedAccountListsNothing | server/src/resolvers/queries/expense.js:25-41 | a token whose account is gone still authenticates and lists no expenses |
| Findings.PaddedTitleSlipsPastDuplicateCheck | server/src/resolvers/mutations/expense.js:27-34 | a title that trims to an existing title of the caller passes the raw-title check and leaves two expenses with one title |
| Findings.CreateExpenseKeepsTitlesUniqueWhenTrimmed | server/src/resolvers/mutations/expense.js:16-34 | as written, titles stay unique per owner when the submitted title is already trimmed |
| Findings.CreateExpenseChecked | server/src/resolvers/mutations/expense.js:11-42 | corrected `createExpense`: same order and effects, with the duplicate check on the sanitised title |
| Findings.CreateExpenseCheckedKeepsTitlesUnique | server/src/resolvers/mutations/expense.js:27-34 | the corrected `createExpense` keeps titles unique per owner for every input |
| Findings.UpdateWithOwnTitleRejected | server/src/resolvers/mutations/expense.js:59-66 | as written, resubmitting an expense's own title, padded or not, fails with `DuplicatedExpenseTitle` |
| Findings.CheckTitleExcept | server/src/resolvers/mutations/expense.js:56-67 | corrected title branch: the duplicate check ignores the expense being updated |
| Findings.UpdateExpenseChecked | server/src/resolvers/mutations/expense.js:44-54 | corrected `updateExpense`: ownership first, as written |
| Findings.UpdateOwnedChecked | server/src/resolvers/mutations/expense.js:56-80 | corrected `updateExpense` after the ownership check: same order and effects, duplicates counted among the caller's other expenses |
| Findings.UpdateCheckedAcceptsOwnTitle | server/src/resolvers/mutations/expense.js:56-80 | the corrected update accepts an expense's own title and then changes nothing |
| Findings.UpdateOwnedCheckedAcceptsOwnTitle | server/src/resolvers/mutations/expense.js:56-80 | the same, after the ownership check |
| Findings.UpdateCheckedKeepsTitlesUnique | server/src/resolvers/mutations/expense.js:56-67 | the corrected update keeps titles unique per owner |
| Findings.SignInUnknownEmailCrashes | server/src/resolvers/mutations/user.js:39-49 | as written, an unknown email yields the null-dereference error, which the wrapper passes through, and not "Account not found." |
| Findings.PaddedPasswordLocksOutOwner | server/src/resolvers/mutations/user.js:48 | as written, a user who signed up with a padded password of at most 72 UTF-8 bytes and without U+0000 cannot sign in with that same password |
| Findings.SignInChecked | server/src/resolvers/mutations/user.js:37-55 | corrected `signIn`: `UserNotFound` exactly for an unknown email; success exactly when the trimmed password matches the stored hash |
| Findings.SignUpThenSignIn | server/src/resolvers/mutations/user.js:13-55 | with the corrected `signIn`, signing up then signing in with the same email and password returns the same user, with a token that verifies as that user |
| Findings.SignInCheckedUnknownEmail | server/src/resolvers/mutations/user.js:37-55 | the corrected `signIn` reports an unknown email as "Account not found." |
| Findings.UpdateUserOnDeletedAccount | server/src/resolvers/mutations/user.js:57-86 | as written, updating a deleted account surfaces as `InternalError`, not "Account not found." |
| Findings.DeleteUserOnDeletedAccount | server/src/resolvers/mutations/user.js:88-91 | as written, deleting a deleted account surfaces as `InternalError` |
| Findings.UpdateUserChecked | server/src/resolvers/mutations/user.js:57-86 | corrected `updateUser`: the account guard follows authentication; no failure carries a `path` |
| Findings.DeleteUserChecked | server/src/resolvers/mutations/user.js:88-91 | corrected `deleteUser`: the account guard follows authentication; no failure carries a `path` |
| Findings.CheckedUserMutationsReportDeletedAccount | server/src/utils/validations.js:3-9 | with the guard, both mutations report a deleted account as `UserNotFound` to the caller |
| Findings.DeleteThenReuseToken | server/src/resolvers/mutations/user.js:88-91 | after the corrected `deleteUser` removes an account, its token still authenticates, `me` and a second corrected delete report it missing, and none of its expenses remain |
| Scenarios.SecondSignUpSameEmailRejected | server/src/resolvers/mutations/user.js:17-18 | a second sign-up with an email already signed up is refused with `EmailInUse` |
| Scenarios.SignUpThenMe | server/src/resolvers/queries/user.js:4-16 | the token `signUp` returns makes `me` answer with the new user |
| Scenarios.CreateThenFetch | server/src/resolvers/queries/expense.js:5-23 | an expense a caller creates, with `createExpense` as written or as corrected, is what `expense(id)` returns to that caller |
| Scenarios.OtherOwnersExpenseHidden | server/src/resolvers/mutations/expense.js:47-54 | another user's expense is answered with `ExpenseNotFound` by `expense`, `updateExpense` and `deleteExpense` |
| Scenarios.OtherOwnersTitlesDoNotBlock | server/src/resolvers/mutations/expense.js:27-32 | a title held only by other users' expenses does not block creation |
| Scenarios.UpdateUserKeepsOwnEmail | server/src/resolvers/mutations/user.js:64-67 | resubmitting one's own email passes `updateUser`'s email checks |

## Left out

- Token signing, the secret and the 3-hour expiry (server/src/utils/generateToken.js): they need cryptography and a clock. Tokens are the abstract `token`/`verify` pair.
- bcrypt's salt and randomness, and jwt's issue time: `hash` and `token` are modelled as functions of their input, so two hashes of one password, or two tokens for one user, compare equal here though they differ in the server; only "a password matches its own hash" and "a token verifies as its user" are relied on.
- Email and date parsing: `isEmail` and `isValidDate` are uninterpreted predicates.
- `createdAt` timestamps and `orderBy`: listings use the backend's default order, modelled as id order.
- Concurrency: each resolver runs atomically on the store, so the check-then-write races between concurrent requests are not modelled.
- The `info` selection set, and the schema code that reports `password` as null: they only shape the response.
- Explicit `null` fields in update arguments: a field is either given or absent.
- The exact wording of backend and runtime errors: a backend failure carries its operation as `path` and a placeholder detail. The null-dereference message is V8's wording before Node 16 ("Cannot read property 'password' of null"); Node 16 and later say "Cannot read properties of null (reading 'password')", so the text depends on the Node version.
- The five error classes missing from `errorsList.js` (`InvalidExpenseTitleError`, `InvalidDateError`, `DuplicatedExpenseTitleError`, `ExpenseNotFoundError`, `UserNotFoundError`): as written each `throw new X()` raises a TypeError without a `path`, which `errorHandlerWrapper` passes through to the caller; the model throws the intended error with the message the tests expect.
- `amount` is carried through as a `real`. GraphQL Float rounding is not modelled.
- Resolver registration (server/src/resolvers/Mutation.js, server/src/resolvers/Query.js): it is framework wiring. Resolver contracts are stated before the wrapper; the Findings lemmas apply `Surface` where the outcome depends on it. None of the resolvers the server wraps fails with a `path`, so the wrapper changes nothing for them. Mutation.js registers only the user mutations; the expense mutations are not exposed there.
- Server bootstrap (server/src/server.js, server/src/index.js) and the tests: the tests serve only as the source of the expected messages.
- ExpenseQueries.Expenses: `skip` and `limit` are natural numbers, so a negative GraphQL `Int` cannot be passed; what the backend does with a negative `skip` or `first` is not modelled.
- Seqs.Page: takes natural numbers only, for the same reason.
- bcrypt's 72-byte truncation: `ExactMatch` assumes nothing about longer passwords, and the padded-password finding is stated only for passwords within the limit.
- NUL truncation: the server does not pin its bcrypt version, and bindings before 5.0 pass the password to C as a NUL-terminated string, so "abc\0defgh" matches the hash of "abc". `ExactMatch` therefore assumes nothing about passwords holding U+0000, and Findings.PaddedPasswordLocksOutOwner is stated only for passwords without it.
- Strings.Trim: its contract states only that the result is trimmed and no longer; where the result sits in the input is stated by `TrimInfix`.

## Findings

| source | as written | input that shows it | evidently intended | confidence | as-written member | corrected member |
|---|---|---|---|---|---|---|
| server/src/resolvers/mutations/expense.js:27-34 | the duplicate check looks for the raw title, but the trimmed title is stored | the caller owns "Rent"; `createExpense` with title " Rent" succeeds and stores a second "Rent" | check the sanitised title, keeping titles unique per owner | high, not executed | Findings.PaddedTitleSlipsPastDuplicateCheck | Findings.CreateExpenseCheckedKeepsTitlesUnique |
| server/src/resolvers/mutations/expense.js:59-66 | the duplicate check also matches the expense being updated | `updateExpense` of expense "Rent" with title "Rent" fails with "You already have an expense with the same title." | only the caller's other expenses count as duplicates | high, not executed | Findings.UpdateWithOwnTitleRejected | Findings.UpdateCheckedAcceptsOwnTitle |
| server/src/resolvers/mutations/user.js:39-49 | `user.password` is read without checking that the lookup found a user | `signIn` with an email nobody has: the caller gets "Cannot read property 'password' of null" | "Account not found.", as server/tests/user.test.js:140-158 expects | high, not executed | Findings.SignInUnknownEmailCrashes | Findings.SignInCheckedUnknownEmail |
| server/src/resolvers/mutations/user.js:48 | the raw password is compared with a hash of the trimmed one | sign up with "secret123 " (trailing space), then sign in with "secret123 ": "Invalid credentials provided." | compare the trimmed password, as `hashPassword` hashed it | medium, not executed | Findings.PaddedPasswordLocksOutOwner | Findings.SignUpThenSignIn |
| server/src/resolvers/mutations/user.js:57-86 | `updateUser` has no `userExists` guard | `updateUser` with the token of a deleted account: "Something went wrong, please try again later" | "Account not found.", as server/tests/user.test.js:360-387 expects | high, not executed | Findings.UpdateUserOnDeletedAccount | Findings.CheckedUserMutationsReportDeletedAccount |
| server/src/resolvers/mutations/user.js:88-91 | `deleteUser` has no `userExists` guard | `deleteUser` with the token of a deleted account: "Something went wrong, please try again later" | "Account not found.", as server/tests/user.test.js:457-471 expects | high, not executed | Findings.DeleteUserOnDeletedAccount | Findings.CheckedUserMutationsReportDeletedAccount |

=== FILE: auth.dfy ===
/** `getUserId`: where the credential is read from, how the bearer prefix is
    stripped, and what happens without one. */
module Auth {
  import opened Wrappers
  import opened Strings
  import opened Errors
  import opened External

  /** The part of an HTTP request `getUserId` reads. */
  datatype HttpRequest = HttpRequest(authorization: Option<string>)

  /** The request context: `request` is present for HTTP requests; otherwise the
      credential sits in the websocket connection's context. */
  datatype Request = Request(http: Option<HttpRequest>, connectionAuthorization: Option<string>)

  /** The text `getUserId` removes from the header before verifying it. */
  const BearerPrefix: string := "Bearer "

  /** The header `getUserId` reads: HTTP's `authorization` when the request is an
      HTTP request (even when that header is missing), the connection's otherwise. */
  function HeaderOf(req: Request): Option<string>
  {
    if req.http.Some? then req.http.value.authorization else req.connectionAuthorization
  }

  /** JavaScript truthiness of the header: a missing header and "" are both falsy. */
  predicate Present(h: Option<string>)
  {
    h.Some? && h.value != ""
  }

  /** Verifies the header with its first "Bearer " removed. */
  function VerifyHeader(lib: Lib, header: string): (r: Result<Id, Error>)
    ensures r.Success? <==> lib.verify(RemoveFirst(header, BearerPrefix)).Success?
    ensures r.Success? ==> lib.verify(RemoveFirst(header, BearerPrefix)) == Success(r.value)
    ensures r.Failure? ==> r.error == TokenRejected(lib.verify(RemoveFirst(header, BearerPrefix)).error)
  {
    match lib.verify(RemoveFirst(header, BearerPrefix))
    case Success(u) => Success(u)
    case Failure(m) => Failure(TokenRejected(m))
  }

  /** `getUserId(request, requiredAuth)`. */
  function GetUserId(lib: Lib, req: Request, requiredAuth: bool): (r: Result<Option<Id>, Error>)
    ensures !Present(HeaderOf(req)) ==> r == (if requiredAuth then Failure(LoginRequired) else Success(None))
    ensures Present(HeaderOf(req)) ==> r.Failure? || r.value.Some?
    ensures Present(HeaderOf(req)) ==>
      (r.Success? <==> lib.verify(RemoveFirst(HeaderOf(req).value, BearerPrefix)).Success?)
    ensures Present(HeaderOf(req)) && r.Failure? ==>
      r.error == TokenRejected(lib.verify(RemoveFirst(HeaderOf(req).value, BearerPrefix)).error)
    ensures r.Success? && r.value.Some? ==>
      Present(HeaderOf(req)) && lib.verify(RemoveFirst(HeaderOf(req).value, BearerPrefix)) == Success(r.value.value)
    ensures r.Failure? ==> r.error == LoginRequired || r.error.TokenRejected?
    ensures requiredAuth && r.Success? ==> r.value.Some?
  {
    var header := HeaderOf(req);
    if Present(header) then
      match VerifyHeader(lib, header.value)
      case Success(u) => Success(Some(u))
      case Failure(e) => Failure(e)
    else if requiredAuth then Failure(LoginRequired)
    else Success(None)
  }

  /** `getUserId(req)` with its default `requiredAuth = true`, as every resolver calls it. */
  function Authenticate(lib: Lib, req: Request): (r: Result<Id, Error>)
    ensures r.Success? ==> GetUserId(lib, req, true) == Success(Some(r.value))
    ensures r.Failure? ==> GetUserId(lib, req, true) == Failure(r.error)
  {
    if Present(HeaderOf(req)) then VerifyHeader(lib, HeaderOf(req).value) else Failure(LoginRequired)
  }

  /** A request carrying `Authorization: Bearer <token>` over HTTP. */
  function BearerRequest(token: string): Request
  {
    Request(Some(HttpRequest(Some(BearerPrefix + token))), None)
  }

  /** A token issued for `u`, sent as a bearer header, identifies `u`. */
  lemma BearerTokenRoundTrip(lib: Lib, u: Id, requiredAuth: bool)
    requires Sound(lib)
    ensures GetUserId(lib, BearerRequest(lib.token(u)), requiredAuth) == Success(Some(u))
    ensures Authenticate(lib, BearerRequest(lib.token(u))) == Success(u)
  {
    RemoveLeadingOccurrence(BearerPrefix, lib.token(u));
  }

  /** For an HTTP request the connection context is never consulted. */
  lemma HttpHeaderWins(lib: Lib, req: Request, other: Option<string>, requiredAuth: bool)
    requires req.http.Some?
    ensures GetUserId(lib, req, requiredAuth)
         == GetUserId(lib, req.(connectionAuthorization := other), requiredAuth)
  {
  }

  /** Without an HTTP request, the connection context's credential is the one used. */
  lemma ConnectionCredentialUsed(lib: Lib, h: string, requiredAuth: bool)
    requires h != ""
    ensures GetUserId(lib, Request(None, Some(h)), requiredAuth)
         == GetUserId(lib, Request(Some(HttpRequest(Some(h))), None), requiredAuth)
  {
  }

  /** An empty credential behaves exactly like a missing one. */
  lemma EmptyCredentialIsAbsent(lib: Lib, http: bool, requiredAuth: bool)
    ensures var empty := if http then Request(Some(HttpRequest(Some(""))), None) else Request(None, Some(""));
            var missing := if http then Request(Some(HttpRequest(None)), None) else Request(None, None);
            GetUserId(lib, empty, requiredAuth) == GetUserId(lib, missing, requiredAuth)
  {
  }

  /** With optional authentication and no credential the result is `null` whatever
      the token library does: `verify` is never consulted. */
  lemma OptionalAuthSkipsVerify(lib: Lib, verify': string -> Result<Id, string>, req: Request)
    requires !Present(HeaderOf(req))
    ensures GetUserId(lib, req, false) == Success(None)
    ensures GetUserId(lib.(verify := verify'), req, false) == Success(None)
  {
  }
}

=== FILE: backend.dfy ===
/** The database backend as an immutable store: users and expenses keyed by id,
    the existence queries the resolvers issue, and the writes they perform. */
module Backend {
  import opened Wrappers
  import opened External

  datatype User = User(id: Id, name: string, email: string, password: string)

  /** `amount` is a GraphQL Float carried through unchanged. */
  datatype Expense = Expense(id: Id, title: string, description: string, amount: real, date: string, owner: Id)

  /** `nextId` is where the backend draws fresh identifiers from. */
  datatype Store = Store(users: map<Id, User>, expenses: map<Id, Expense>, nextId: Id)

  /** Records sit under their own id, ids are below `nextId`, and every expense
      belongs to an existing user. */
  ghost predicate Valid(s: Store)
  {
    && (forall k :: k in s.users ==> k < s.nextId && s.users[k].id == k)
    && (forall k :: k in s.expenses ==> k < s.nextId && s.expenses[k].id == k && s.expenses[k].owner in s.users)
  }

  /** No two users share an email. */
  ghost predicate EmailsUnique(s: Store)
  {
    forall a, b :: a in s.users && b in s.users && s.users[a].email == s.users[b].email ==> a == b
  }

  /** No user owns two expenses with the same title. */
  ghost predicate TitlesUniquePerOwner(s: Store)
  {
    forall a, b ::
      a in s.expenses && b in s.expenses &&
      s.expenses[a].owner == s.expenses[b].owner && s.expenses[a].title == s.expenses[b].title
      ==> a == b
  }

  /** `exists.User({ email })` */
  predicate EmailTaken(s: Store, email: string)
  {
    exists k :: k in s.users && s.users[k].email == email
  }

  /** `exists.User({ email, id_not: id })` */
  predicate EmailTakenByOther(s: Store, email: string, id: Id)
  {
    exists k :: k in s.users && k != id && s.users[k].email == email
  }

  /** `exists.Expense({ id, owner: { id: owner } })` */
  predicate OwnsExpense(s: Store, id: Id, owner: Id)
  {
    id in s.expenses && s.expenses[id].owner == owner
  }

  /** `exists.Expense({ title, owner: { id: owner } })` */
  predicate TitleTaken(s: Store, title: string, owner: Id)
  {
    exists k :: k in s.expenses && s.expenses[k].owner == owner && s.expenses[k].title == title
  }

  /** `exists.Expense({ title, owner: { id: owner }, id_not: id })` */
  predicate TitleTakenByOther(s: Store, title: string, owner: Id, id: Id)
  {
    exists k :: k in s.expenses && k != id && s.expenses[k].owner == owner && s.expenses[k].title == title
  }

  /** Putting an expense under `id` keeps titles unique exactly when none of the
      owner's OTHER expenses already has its title. */
  lemma PutKeepsTitlesUnique(s: Store, s': Store, id: Id, e: Expense)
    requires s'.expenses == s.expenses[id := e]
    ensures TitleTakenByOther(s, e.title, e.owner, id) ==> !TitlesUniquePerOwner(s')
    ensures TitlesUniquePerOwner(s) && !TitleTakenByOther(s, e.title, e.owner, id) ==> TitlesUniquePerOwner(s')
  {
    var m := s'.expenses;
    if TitleTakenByOther(s, e.title, e.owner, id) {
      var k :| k in s.expenses && k != id && s.expenses[k].owner == e.owner && s.expenses[k].title == e.title;
      assert m[k].owner == m[id].owner && m[k].title == m[id].title;
    } else {
      assert forall k :: k in m && k != id ==> k in s.expenses && m[k] == s.expenses[k];
    }
  }

  /** `mutation.createUser`: stores the user under a fresh id. */
  function InsertUser(s: Store, name: string, email: string, password: string): (r: (Store, User))
    ensures r.1.name == name && r.1.email == email && r.1.password == password
    ensures r.0.users == s.users[r.1.id := r.1] && r.0.expenses == s.expenses
    ensures Valid(s) ==> r.1.id !in s.users && Valid(r.0)
  {
    var u := User(s.nextId, name, email, password);
    (Store(s.users[u.id := u], s.expenses, s.nextId + 1), u)
  }

  /** `mutation.createExpense` connecting the expense to `owner`. */
  function InsertExpense(s: Store, title: string, description: string, amount: real, date: string, owner: Id)
    : (r: (Store, Expense))
    requires owner in s.users
    ensures r.1.title == title && r.1.description == description && r.1.amount == amount
    ensures r.1.date == date && r.1.owner == owner
    ensures r.0.expenses == s.expenses[r.1.id := r.1] && r.0.users == s.users
    ensures Valid(s) ==> r.1.id !in s.expenses && Valid(r.0)
  {
    var e := Expense(s.nextId, title, description, amount, date, owner);
    (Store(s.users, s.expenses[e.id := e], s.nextId + 1), e)
  }

  /** `mutation.updateExpense({ where: { id }, data })`: replaces the stored record. */
  function ReplaceExpense(s: Store, id: Id, e: Expense): (r: Store)
    requires id in s.expenses
    ensures r.expenses == s.expenses[id := e] && r.users == s.users && r.nextId == s.nextId
    ensures Valid(s) && e.id == id && e.owner == s.expenses[id].owner ==> Valid(r)
  {
    s.(expenses := s.expenses[id := e])
  }

  /** `mutation.deleteUser`, with the relation's cascade to the user's expenses. */
  function DeleteUserCascade(s: Store, id: Id): (r: Store)
    ensures r.users == s.users - {id} && r.nextId == s.nextId
    ensures forall k :: k in r.expenses <==> k in s.expenses && s.expenses[k].owner != id
    ensures forall k :: k in r.expenses ==> r.expenses[k] == s.expenses[k]
    ensures Valid(s) ==> Valid(r)
  {
    Store(s.users - {id}, map k | k in s.expenses && s.expenses[k].owner != id :: s.expenses[k], s.nextId)
  }

  /** The key the backend orders expenses by. */
  function IdOf(e: Expense): int
  {
    e.id
  }

  /** The expenses stored under ids `k`, `k + 1`, ... below `nextId`, in id order:
      the backend's default ordering. Each appears once, as ids strictly increase. */
  function ExpensesFrom(s: Store, k: nat): (r: seq<Expense>)
    ensures forall e :: e in r ==> e in s.expenses.Values
    ensures forall id :: k <= id < s.nextId && id in s.expenses ==> s.expenses[id] in r
    ensures Valid(s) ==> forall e :: e in r ==> k <= e.id
    ensures Valid(s) ==> forall i, j :: 0 <= i < j < |r| ==> IdOf(r[i]) < IdOf(r[j])
    decreases s.nextId - k
  {
    if k >= s.nextId then []
    else (if k in s.expenses then [s.expenses[k]] else []) + ExpensesFrom(s, k + 1)
  }

  /** The id of the first user, in id order from `k`, whose email is `email`. */
  function UserIdByEmailFrom(s: Store, email: string, k: nat): (r: Option<Id>)
    ensures r.Some? ==> k <= r.value && r.value in s.users && s.users[r.value].email == email
    ensures r.Some? ==> forall id :: k <= id < r.value && id in s.users ==> s.users[id].email != email
    ensures r.None? ==> forall id :: k <= id < s.nextId && id in s.users ==> s.users[id].email != email
    decreases s.nextId - k
  {
    if k >= s.nextId then None
    else if k in s.users && s.users[k].email == email then Some(k)
    else UserIdByEmailFrom(s, email, k + 1)
  }

  /** `query.user({ where: { email } })`: the user with that email, or null. */
  function UserByEmail(s: Store, email: string): (r: Option<User>)
    ensures r.Some? ==> r.value in s.users.Values && r.value.email == email
    ensures Valid(s) ==> (r.None? <==> !EmailTaken(s, email))
    ensures Valid(s) && EmailsUnique(s) ==>
      forall k :: k in s.users && s.users[k].email == email ==> r == Some(s.users[k])
  {
    match UserIdByEmailFrom(s, email, 0)
    case Some(id) => Some(s.users[id])
    case None => None
  }
}

=== FILE: error_handler.dfy ===
/** `errorHandlerWrapper`: the catch block every registered resolver runs behind. */
module ErrorHandler {
  import opened Wrappers
  import opened Errors

  /** What the caller receives for a resolver outcome `r`: values and path-less
      errors pass unchanged, an error carrying a `path` becomes `InternalError`. */
  function Surface<T>(r: Result<T, Error>): (o: Result<T, Error>)
    ensures r.Success? ==> o == r
    ensures o.Failure? ==> r.Failure? && !HasPath(o.error)
    ensures r.Failure? && !HasPath(r.error) ==> o == r
    ensures r.Failure? && HasPath(r.error) ==> o == Failure(InternalError)
  {
    match r
    case Success(_) => r
    case Failure(e) => if HasPath(e) then Failure(InternalError) else r
  }

  /** `errorHandlerWrapper(resolver)(...args)`. */
  function ErrorHandlerWrapper<A, T>(resolver: A -> Result<T, Error>, args: A): (o: Result<T, Error>)
    ensures resolver(args).Success? ==> o == resolver(args)
    ensures resolver(args).Failure? && HasPath(resolver(args).error) ==> o == Failure(InternalError)
    ensures resolver(args).Failure? && !HasPath(resolver(args).error) ==> o == resolver(args)
  {
    Surface(resolver(args))
  }

  /** Wrapping twice surfaces the same outcome as wrapping once. */
  lemma SurfaceIdempotent<T>(r: Result<T, Error>)
    ensures Surface(Surface(r)) == Surface(r)
  {
  }

  /** Backend detail never reaches the caller: two backend failures with different
      paths and details surface with the same generic message. */
  lemma BackendDetailHidden<T>(p1: seq<string>, d1: string, p2: seq<string>, d2: string)
    ensures var o1 := Surface<T>(Failure(BackendFailure(p1, d1)));
            var o2 := Surface<T>(Failure(BackendFailure(p2, d2)));
            o1.Failure? && o2.Failure? && Message(o1.error) == Message(o2.error)
            && HasFixedMessage(o1.error)
  {
  }

  /** Catalogued errors and the login error reach the caller unchanged. */
  lemma FixedMessageErrorsPassThrough<T>(e: Error)
    requires HasFixedMessage(e)
    ensures Surface<T>(Failure(e)) == Failure(e)
  {
  }
}

=== FILE: errors.dfy ===
/** The errors a resolver can throw: the `apollo-errors` classes with their fixed
    messages, the plain login error, and the uncontrolled errors raised by the
    token library, the JavaScript runtime and the database backend. */
module Errors {
  import opened Wrappers

  datatype Error =
    | InternalError
    | InvalidEmail
    | EmailInUse
    | InvalidPassword
    | InvalidCredentials
    | InvalidExpenseTitle
    | InvalidDate
    | DuplicatedExpenseTitle
    | ExpenseNotFound
    | UserNotFound
      /** the plain `Error` thrown by `getUserId` when no credential is sent */
    | LoginRequired
      /** thrown by `jwt.verify`; carries the library's message */
    | TokenRejected(reason: string)
      /** the runtime's TypeError when a property of `null` is read */
    | NullDereference(property: string)
      /** an error reported by the database backend; it carries a GraphQL `path` */
    | BackendFailure(path: seq<string>, detail: string)

  /** The classes created with `createError`, each with a fixed message. */
  predicate IsCatalogued(e: Error)
  {
    !(e.LoginRequired? || e.TokenRejected? || e.NullDereference? || e.BackendFailure?)
  }

  /** Errors whose message does not depend on any runtime detail. */
  predicate HasFixedMessage(e: Error)
  {
    IsCatalogued(e) || e.LoginRequired?
  }

  /** The error carries a `path` property, the test `errorHandlerWrapper` applies. */
  predicate HasPath(e: Error)
  {
    e.BackendFailure?
  }

  /** The message the caller receives for `e`. */
  function Message(e: Error): string
  {
    match e
    case InternalError => "Something went wrong, please try again later"
    case InvalidEmail => "Please provide a valid email."
    case EmailInUse => "The email provided is already in use."
    case InvalidPassword => "Please provide a password with at least 8 characters."
    case InvalidCredentials => "Invalid credentials provided."
    case InvalidExpenseTitle => "Please provide a expense title with at least 2 characters."
    case InvalidDate => "Please provide a valid date."
    case DuplicatedExpenseTitle => "You already have an expense with the same title."
    case ExpenseNotFound => "Expense not found."
    case UserNotFound => "Account not found."
    case LoginRequired => "You need to login first!"
    case TokenRejected(reason) => reason
    case NullDereference(property) => "Cannot read property '" + property + "' of null"
    case BackendFailure(_, detail) => detail
  }

  /** The length of each fixed message. */
  function MessageLength(e: Error): nat
    requires HasFixedMessage(e)
  {
    match e
    case InternalError => 44
    case InvalidEmail => 29
    case EmailInUse => 37
    case InvalidPassword => 53
    case InvalidCredentials => 29
    case InvalidExpenseTitle => 58
    case InvalidDate => 28
    case DuplicatedExpenseTitle => 48
    case ExpenseNotFound => 18
    case UserNotFound => 18
    case LoginRequired => 24
  }

  lemma MessageHasLength(e: Error)
    requires HasFixedMessage(e)
    ensures |Message(e)| == MessageLength(e)
  {
    match e
    case InternalError =>
    case InvalidEmail =>
    case EmailInUse =>
    case InvalidPassword =>
    case InvalidCredentials =>
    case InvalidExpenseTitle =>
    case InvalidDate =>
    case DuplicatedExpenseTitle =>
    case ExpenseNotFound =>
    case UserNotFound =>
    case LoginRequired =>
  }

  /** Distinct fixed-message errors carry distinct messages. Only two pairs of
      messages share a length, and those differ in their first character. */
  lemma FixedMessagesDistinct(e1: Error, e2: Error)
    requires HasFixedMessage(e1) && HasFixedMessage(e2) && e1 != e2
    ensures Message(e1) != Message(e2)
  {
    MessageHasLength(e1);
    MessageHasLength(e2);
    if MessageLength(e1) == MessageLength(e2) {
      assert Message(InvalidEmail) != Message(InvalidCredentials);
      assert Message(ExpenseNotFound) != Message(UserNotFound);
    }
  }
}

=== FILE: expense_mutations.dfy ===
/** The expense mutations: `createExpense`, `updateExpense`, `deleteExpense`. */
module ExpenseMutations {
  import opened Wrappers
  import opened Strings
  import opened Errors
  import opened External
  import opened Backend
  import opened Sanitize
  import opened Auth

  datatype ExpenseInput = ExpenseInput(title: string, description: string, amount: real, date: string)

  /** `updateExpense`'s `data`: a field is either given or absent. */
  datatype ExpenseUpdate = ExpenseUpdate(
    title: Option<string>, description: Option<string>, amount: Option<real>, date: Option<string>)

  /** The backend's answer to a `connect` to an owner that does not exist. */
  function MissingOwner(): Error
  {
    BackendFailure(["createExpense"], "No user matches the owner to connect")
  }

  /** `createExpense` as written: title, description and date are sanitised first;
      the duplicate check then looks for the RAW title among the caller's expenses,
      while the stored title is the trimmed one. */
  function CreateExpense(lib: Lib, s: Store, req: Request, data: ExpenseInput): (r: Result<(Store, Expense), Error>)
    ensures Authenticate(lib, req).Failure? ==> r == Failure(Authenticate(lib, req).error)
    ensures Authenticate(lib, req).Success? ==>
            var uid := Authenticate(lib, req).value;
            var titleOk := Utf16Length(Trim(lib.isWhitespace, data.title)) >= MinTitleLength;
            var dateOk := lib.isValidDate(Trim(lib.isWhitespace, data.date));
            && (!titleOk ==> r == Failure(InvalidExpenseTitle))
            && (titleOk && !dateOk ==> r == Failure(InvalidDate))
            && (titleOk && dateOk && TitleTaken(s, data.title, uid) ==> r == Failure(DuplicatedExpenseTitle))
            && (titleOk && dateOk && !TitleTaken(s, data.title, uid) ==>
                  (r.Success? <==> uid in s.users) && (r.Failure? ==> HasPath(r.error)))
    ensures r.Success? ==>
            var (s', e) := r.value;
            && e.owner == Authenticate(lib, req).value
            && e.title == Trim(lib.isWhitespace, data.title)
            && e.description == Trim(lib.isWhitespace, data.description)
            && e.amount == data.amount
            && e.date == Trim(lib.isWhitespace, data.date)
            && s'.expenses == s.expenses[e.id := e] && s'.users == s.users
            && (Valid(s) ==> e.id !in s.expenses && Valid(s'))
  {
    var uid :- Authenticate(lib, req);
    var title :- SanitizeTitle(lib, data.title);
    var description := Trim(lib.isWhitespace, data.description);
    var date :- SanitizeDate(lib, data.date);
    if TitleTaken(s, data.title, uid) then Failure(DuplicatedExpenseTitle)
    else if uid !in s.users then Failure(MissingOwner())
    else Success(Backend.InsertExpense(s, title, description, data.amount, date, uid))
  }

  /** The new record `updateExpense` writes: given fields replace stored ones. */
  function Apply(e: Expense, title: Option<string>, data: ExpenseUpdate, date: Option<string>): Expense
  {
    e.(title := title.GetOr(e.title),
       description := data.description.GetOr(e.description),
       amount := data.amount.GetOr(e.amount),
       date := date.GetOr(e.date))
  }

  /** `updateExpense` as written: the ownership check comes first; a given title is
      sanitised and then must not equal the title of ANY of the caller's expenses,
      the one being updated included; a given date is sanitised. */
  function UpdateExpense(lib: Lib, s: Store, req: Request, id: Id, data: ExpenseUpdate)
    : (r: Result<(Store, Expense), Error>)
    ensures Authenticate(lib, req).Failure? ==> r == Failure(Authenticate(lib, req).error)
    ensures Authenticate(lib, req).Success? ==>
            var uid := Authenticate(lib, req).value;
            && (!OwnsExpense(s, id, uid) ==> r == Failure(ExpenseNotFound))
            && (OwnsExpense(s, id, uid) ==> r == UpdateOwned(lib, s, uid, id, data))
  {
    var uid :- Authenticate(lib, req);
    if !OwnsExpense(s, id, uid) then Failure(ExpenseNotFound) else UpdateOwned(lib, s, uid, id, data)
  }

  /** The part of `updateExpense` after the ownership check: title, duplicate check,
      date, then the write. */
  function UpdateOwned(lib: Lib, s: Store, uid: Id, id: Id, data: ExpenseUpdate)
    : (r: Result<(Store, Expense), Error>)
    requires OwnsExpense(s, id, uid)
    ensures var titleOk := data.title.Some? ==> Utf16Length(Trim(lib.isWhitespace, data.title.value)) >= MinTitleLength;
            var titleFree := data.title.Some? ==> !TitleTaken(s, Trim(lib.isWhitespace, data.title.value), uid);
            var dateOk := data.date.Some? ==> lib.isValidDate(Trim(lib.isWhitespace, data.date.value));
            && (!titleOk ==> r == Failure(InvalidExpenseTitle))
            && (titleOk && !titleFree ==> r == Failure(DuplicatedExpenseTitle))
            && (titleOk && titleFree && !dateOk ==> r == Failure(InvalidDate))
            && (titleOk && titleFree && dateOk ==> r.Success?)
    ensures r.Success? ==>
            && r.value.1.id == s.expenses[id].id && r.value.1.owner == uid
            && r.value.1.title == (if data.title.Some? then Trim(lib.isWhitespace, data.title.value) else s.expenses[id].title)
            && r.value.1.description == data.description.GetOr(s.expenses[id].description)
            && r.value.1.amount == data.amount.GetOr(s.expenses[id].amount)
            && r.value.1.date == (if data.date.Some? then Trim(lib.isWhitespace, data.date.value) else s.expenses[id].date)
            && r.value.0 == s.(expenses := s.expenses[id := r.value.1])
    ensures r.Success? && Valid(s) ==> Valid(r.value.0)
  {
    var title :- CheckTitle(lib, s, data.title, uid);
    var date :- SanitizeDateGiven(lib, data.date);
    var e := Apply(s.expenses[id], title, data, date);
    Success((Backend.ReplaceExpense(s, id, e), e))
  }

  /** The title branch of `updateExpense`: a given title is sanitised, then
      checked against the caller's expenses. */
  function CheckTitle(lib: Lib, s: Store, title: Option<string>, uid: Id): (r: Result<Option<string>, Error>)
    ensures title.None? ==> r == Success(None)
    ensures title.Some? ==>
            var t := Trim(lib.isWhitespace, title.value);
            && (Utf16Length(t) < MinTitleLength ==> r == Failure(InvalidExpenseTitle))
            && (Utf16Length(t) >= MinTitleLength && TitleTaken(s, t, uid) ==> r == Failure(DuplicatedExpenseTitle))
            && (Utf16Length(t) >= MinTitleLength && !TitleTaken(s, t, uid) ==> r == Success(Some(t)))
  {
    if title.None? then Success(None)
    else
      var t :- SanitizeTitle(lib, title.value);
      if TitleTaken(s, t, uid) then Failure(DuplicatedExpenseTitle) else Success(Some(t))
  }

  /** The date branch of `updateExpense`: a given date is sanitised. */
  function SanitizeDateGiven(lib: Lib, date: Option<string>): (r: Result<Option<string>, Error>)
    ensures date.None? ==> r == Success(None)
    ensures date.Some? ==>
            (lib.isValidDate(Trim(lib.isWhitespace, date.value)) ==> r == Success(Some(Trim(lib.isWhitespace, date.value))))
            && (!lib.isValidDate(Trim(lib.isWhitespace, date.value)) ==> r == Failure(InvalidDate))
  {
    if date.None? then Success(None)
    else
      var d :- SanitizeDate(lib, date.value);
      Success(Some(d))
  }

  /** `deleteExpense`: the ownership check, then removal of that one expense. */
  function DeleteExpense(lib: Lib, s: Store, req: Request, id: Id): (r: Result<(Store, Expense), Error>)
    ensures Authenticate(lib, req).Failure? ==> r == Failure(Authenticate(lib, req).error)
    ensures Authenticate(lib, req).Success? ==>
            (r.Success? <==> OwnsExpense(s, id, Authenticate(lib, req).value))
            && (r.Failure? ==> r.error == ExpenseNotFound)
    ensures r.Success? ==>
            var (s', e) := r.value;
            && id in s.expenses && e == s.expenses[id]
            && s'.expenses == s.expenses - {id} && s'.users == s.users && s'.nextId == s.nextId
            && (Valid(s) ==> Valid(s'))
            && (TitlesUniquePerOwner(s) ==> TitlesUniquePerOwner(s'))
  {
    var uid :- Authenticate(lib, req);
    if !OwnsExpense(s, id, uid) then Failure(ExpenseNotFound)
    else Success((s.(expenses := s.expenses - {id}), s.expenses[id]))
  }

  /** A successful update keeps every owner's titles distinct: the new title is
      checked against all of the caller's expenses, and the owner never changes. */
  lemma UpdateExpenseKeepsTitlesUnique(lib: Lib, s: Store, req: Request, id: Id, data: ExpenseUpdate)
    requires TitlesUniquePerOwner(s)
    requires UpdateExpense(lib, s, req, id, data).Success?
    ensures TitlesUniquePerOwner(UpdateExpense(lib, s, req, id, data).value.0)
  {
  }
}

=== FILE: expense_queries.dfy ===
/** The expense queries: `expense` (one owned expense) and `expenses` (the
    caller's expenses, filtered by title and paged). */
module ExpenseQueries {
  import opened Wrappers
  import opened Strings
  import opened Seqs
  import opened Errors
  import opened External
  import opened Backend
  import opened Auth

  /** `expense(id)`: the expense with that id, provided the caller owns it. */
  function ExpenseById(lib: Lib, s: Store, req: Request, id: Id): (r: Result<(Store, Expense), Error>)
    ensures Authenticate(lib, req).Failure? ==> r == Failure(Authenticate(lib, req).error)
    ensures Authenticate(lib, req).Success? ==>
            (r.Success? <==> OwnsExpense(s, id, Authenticate(lib, req).value))
            && (r.Failure? ==> r.error == ExpenseNotFound)
    ensures r.Success? ==>
            && r.value.0 == s
            && id in s.expenses && r.value.1 == s.expenses[id]
            && r.value.1.owner == Authenticate(lib, req).value
            && (Valid(s) ==> r.value.1.id == id)
  {
    var uid :- Authenticate(lib, req);
    if !OwnsExpense(s, id, uid) then Failure(ExpenseNotFound) else Success((s, s.expenses[id]))
  }

  /** The `where` clause of `expenses`: owned by the caller and, when `query` is a
      non-empty string, a title containing it. */
  predicate Selected(uid: Id, query: Option<string>, e: Expense)
  {
    e.owner == uid && (query.None? || query.value == "" || Contains(e.title, query.value))
  }

  /** `expenses(query, skip, limit)`: the selected expenses in the backend's order,
      the first `skip` dropped, at most `limit` kept. The listing is in increasing
      id order, so no expense appears twice. */
  function Expenses(lib: Lib, s: Store, req: Request, query: Option<string>, skip: Option<nat>, limit: Option<nat>)
    : (r: Result<(Store, seq<Expense>), Error>)
    ensures Authenticate(lib, req).Failure? ==> r == Failure(Authenticate(lib, req).error)
    ensures Authenticate(lib, req).Success? ==> r.Success?
    ensures r.Success? ==>
            && r.value.0 == s
            && (forall e :: e in r.value.1 ==>
                  e in s.expenses.Values && e.owner == Authenticate(lib, req).value
                  && (query.Some? && query.value != "" ==> Contains(e.title, query.value)))
            && (limit.Some? ==> |r.value.1| <= limit.value)
    ensures r.Success? && Valid(s) ==> forall i, j :: 0 <= i < j < |r.value.1| ==> IdOf(r.value.1[i]) < IdOf(r.value.1[j])
  {
    var uid :- Authenticate(lib, req);
    var matching := Filter((e: Expense) => Selected(uid, query, e), ExpensesFrom(s, 0));
    FilterKeepsIncreasing((e: Expense) => Selected(uid, query, e), IdOf, ExpensesFrom(s, 0));
    PageKeepsIncreasing(IdOf, matching, skip, limit);
    Success((s, Page(matching, skip, limit)))
  }

  /** Without paging, every stored expense the caller owns and whose title matches
      is listed. */
  lemma ExpensesComplete(lib: Lib, s: Store, req: Request, query: Option<string>, id: Id)
    requires Valid(s)
    requires Authenticate(lib, req).Success?
    requires id in s.expenses && Selected(Authenticate(lib, req).value, query, s.expenses[id])
    ensures s.expenses[id] in Expenses(lib, s, req, query, None, None).value.1
  {
  }

  /** Paging only cuts a window out of the unpaged listing: the result is the
      unpaged list from position `skip` on, at most `limit` long. */
  lemma ExpensesPageIsWindow(lib: Lib, s: Store, req: Request, query: Option<string>, skip: nat, limit: Option<nat>)
    requires Authenticate(lib, req).Success?
    ensures var all := Expenses(lib, s, req, query, None, None).value.1;
            var page := Expenses(lib, s, req, query, Some(skip), limit).value.1;
            && (skip <= |all| ==> |page| == (if limit.Some? then Min(limit.value, |all| - skip) else |all| - skip))
            && (skip > |all| ==> page == [])
            && forall i :: 0 <= i < |page| ==> page[i] == all[skip + i]
  {
  }

  /** A token whose account was deleted still authenticates, and lists nothing. */
  lemma DeletedAccountListsNothing(lib: Lib, s: Store, req: Request, query: Option<string>,
                                   skip: Option<nat>, limit: Option<nat>)
    requires Valid(s)
    requires Authenticate(lib, req).Success? && Authenticate(lib, req).value !in s.users
    ensures Expenses(lib, s, req, query, skip, limit) == Success((s, []))
  {
    var uid := Authenticate(lib, req).value;
    assert forall e :: e in ExpensesFrom(s, 0) ==> e.owner in s.users;
    assert forall e :: e in ExpensesFrom(s, 0) ==> !Selected(uid, query, e);
  }
}

=== FILE: external.dfy ===
/** The foreign libraries the resolvers call, kept uninterpreted: a `Lib` value
    bundles one arbitrary total function per library entry point, and `Sound`
    states the only facts the resolvers rely on. */
module External {
  import opened Wrappers
  import opened Strings

  /** A backend-assigned record identifier. */
  type Id = nat

  datatype Lib = Lib(
    /** the characters `String.prototype.trim` strips */
    isWhitespace: char -> bool,
    /** `validator.isEmail` */
    isEmail: string -> bool,
    /** `moment(date).isValid()` */
    isValidDate: string -> bool,
    /** `bcrypt.hashSync(password, salt)`; the salt is not modelled */
    hash: string -> string,
    /** `bcrypt.compareSync(plain, digest)` */
    matches: (string, string) -> bool,
    /** `generateToken`: `jwt.sign({ userId }, secret)`; expiry is not modelled */
    token: Id -> string,
    /** `jwt.verify(token, secret).userId`, or the message of the error it throws */
    verify: string -> Result<Id, string>)

  /** A password always matches its own hash, and a token always verifies to the
      id it was issued for. */
  ghost predicate Sound(lib: Lib)
  {
    && (forall p :: lib.matches(p, lib.hash(p)))
    && (forall u: Id :: lib.verify(lib.token(u)) == Success(u))
  }

  /** bcrypt hashes at most this many bytes of its input and ignores the rest. */
  const BcryptMaxBytes: nat := 72

  /** Among passwords that fit in bcrypt's input and hold no U+0000, a hash
      matches no plaintext other than the one it was computed from. Longer
      passwords that agree on their first 72 bytes do match each other's
      hashes, and bcrypt bindings before 5.0 stop reading at the first NUL, so
      nothing is assumed about either kind. */
  ghost predicate ExactMatch(lib: Lib)
  {
    forall p, q ::
      && Utf8Length(p) <= BcryptMaxBytes && Utf8Length(q) <= BcryptMaxBytes
      && '\0' !in p && '\0' !in q
      && lib.matches(p, lib.hash(q))
      ==> p == q
  }
}

=== FILE: findings.dfy ===
/** Where the resolvers, as written, break a promise of the server's own tests
    (server/tests/user.test.js) or an invariant the other resolvers keep: each
    as-written behaviour is exhibited by a lemma about the resolver, next to a
    corrected resolver and the property proved about it. */
module Findings {
  import opened Wrappers
  import opened Strings
  import opened Errors
  import opened ErrorHandler
  import opened External
  import opened Backend
  import opened Validations
  import opened Sanitize
  import opened Password
  import opened Auth
  import opened UserMutations
  import opened UserQueries
  import opened ExpenseMutations

  // ---------------------------------------------------------------------------
  // createExpense checks the raw title for duplicates but stores the trimmed one.

  /** As written, a title that differs from an existing one only by surrounding
      whitespace passes the duplicate check, and the owner ends up with two
      expenses under the same title. */
  lemma PaddedTitleSlipsPastDuplicateCheck(lib: Lib, s: Store, req: Request, data: ExpenseInput, k: Id)
    requires Valid(s)
    requires Authenticate(lib, req).Success?
    requires OwnsExpense(s, k, Authenticate(lib, req).value)
    requires Trim(lib.isWhitespace, data.title) == s.expenses[k].title && Utf16Length(s.expenses[k].title) >= MinTitleLength
    requires lib.isValidDate(Trim(lib.isWhitespace, data.date))
    requires !TitleTaken(s, data.title, Authenticate(lib, req).value)
    ensures ExpenseMutations.CreateExpense(lib, s, req, data).Success?
    ensures !TitlesUniquePerOwner(ExpenseMutations.CreateExpense(lib, s, req, data).value.0)
  {
    var r := ExpenseMutations.CreateExpense(lib, s, req, data);
    var e := r.value.1;
    assert TitleTakenByOther(s, e.title, e.owner, e.id);
    PutKeepsTitlesUnique(s, r.value.0, e.id, e);
  }

  /** As written, uniqueness is kept when the submitted title is already trimmed. */
  lemma CreateExpenseKeepsTitlesUniqueWhenTrimmed(lib: Lib, s: Store, req: Request, data: ExpenseInput)
    requires Valid(s) && TitlesUniquePerOwner(s)
    requires Trimmed(lib.isWhitespace, data.title)
    requires ExpenseMutations.CreateExpense(lib, s, req, data).Success?
    ensures TitlesUniquePerOwner(ExpenseMutations.CreateExpense(lib, s, req, data).value.0)
  {
    TrimFixedIff(lib.isWhitespace, data.title);
    var r := ExpenseMutations.CreateExpense(lib, s, req, data);
    var e := r.value.1;
    assert !TitleTaken(s, e.title, e.owner);
    PutKeepsTitlesUnique(s, r.value.0, e.id, e);
  }

  /** `createExpense` with the duplicate check on the sanitised title. */
  function CreateExpenseChecked(lib: Lib, s: Store, req: Request, data: ExpenseInput)
    : (r: Result<(Store, Backend.Expense), Error>)
    ensures Authenticate(lib, req).Failure? ==> r == Failure(Authenticate(lib, req).error)
    ensures Authenticate(lib, req).Success? ==>
            var uid := Authenticate(lib, req).value;
            var title := Trim(lib.isWhitespace, data.title);
            var titleOk := Utf16Length(title) >= MinTitleLength;
            var dateOk := lib.isValidDate(Trim(lib.isWhitespace, data.date));
            && (!titleOk ==> r == Failure(InvalidExpenseTitle))
            && (titleOk && !dateOk ==> r == Failure(InvalidDate))
            && (titleOk && dateOk && TitleTaken(s, title, uid) ==> r == Failure(DuplicatedExpenseTitle))
            && (titleOk && dateOk && !TitleTaken(s, title, uid) ==>
                  (r.Success? <==> uid in s.users) && (r.Failure? ==> HasPath(r.error)))
    ensures r.Success? ==>
            var (s', e) := r.value;
            && e.owner == Authenticate(lib, req).value
            && e.title == Trim(lib.isWhitespace, data.title)
            && e.description == Trim(lib.isWhitespace, data.description)
            && e.amount == data.amount
            && e.date == Trim(lib.isWhitespace, data.date)
            && s'.expenses == s.expenses[e.id := e] && s'.users == s.users
            && (Valid(s) ==> e.id !in s.expenses && Valid(s'))
  {
    var uid :- Authenticate(lib, req);
    var title :- SanitizeTitle(lib, data.title);
    var description := Trim(lib.isWhitespace, data.description);
    var date :- SanitizeDate(lib, data.date);
    if TitleTaken(s, title, uid) then Failure(DuplicatedExpenseTitle)
    else if uid !in s.users then Failure(MissingOwner())
    else Success(Backend.InsertExpense(s, title, description, data.amount, date, uid))
  }

  /** The corrected `createExpense` keeps every owner's titles distinct, whatever
      whitespace surrounds the submitted title. */
  lemma CreateExpenseCheckedKeepsTitlesUnique(lib: Lib, s: Store, req: Request, data: ExpenseInput)
    requires Valid(s) && TitlesUniquePerOwner(s)
    requires CreateExpenseChecked(lib, s, req, data).Success?
    ensures TitlesUniquePerOwner(CreateExpenseChecked(lib, s, req, data).value.0)
  {
    var r := CreateExpenseChecked(lib, s, req, data);
    var e := r.value.1;
    assert !TitleTaken(s, e.title, e.owner);
    PutKeepsTitlesUnique(s, r.value.0, e.id, e);
  }

  // ---------------------------------------------------------------------------
  // updateExpense's duplicate check also matches the expense being updated.

  /** As written, resubmitting an expense's own title is rejected as a duplicate. */
  lemma UpdateWithOwnTitleRejected(lib: Lib, s: Store, req: Request, id: Id, data: ExpenseUpdate)
    requires Authenticate(lib, req).Success? && OwnsExpense(s, id, Authenticate(lib, req).value)
    requires data.title.Some? && Trim(lib.isWhitespace, data.title.value) == s.expenses[id].title
    requires Utf16Length(s.expenses[id].title) >= MinTitleLength
    ensures ExpenseMutations.UpdateExpense(lib, s, req, id, data) == Failure(DuplicatedExpenseTitle)
  {
    assert TitleTaken(s, Trim(lib.isWhitespace, data.title.value), Authenticate(lib, req).value);
  }

  /** The corrected title branch: the expense being updated does not collide with itself. */
  function CheckTitleExcept(lib: Lib, s: Store, title: Option<string>, uid: Id, id: Id)
    : (r: Result<Option<string>, Error>)
    ensures title.None? ==> r == Success(None)
    ensures title.Some? ==>
            var t := Trim(lib.isWhitespace, title.value);
            && (Utf16Length(t) < MinTitleLength ==> r == Failure(InvalidExpenseTitle))
            && (Utf16Length(t) >= MinTitleLength && TitleTakenByOther(s, t, uid, id) ==> r == Failure(DuplicatedExpenseTitle))
            && (Utf16Length(t) >= MinTitleLength && !TitleTakenByOther(s, t, uid, id) ==> r == Success(Some(t)))
  {
    if title.None? then Success(None)
    else
      var t :- SanitizeTitle(lib, title.value);
      if TitleTakenByOther(s, t, uid, id) then Failure(DuplicatedExpenseTitle) else Success(Some(t))
  }

  /** `updateExpense` with the duplicate check limited to the caller's OTHER expenses. */
  function UpdateExpenseChecked(lib: Lib, s: Store, req: Request, id: Id, data: ExpenseUpdate)
    : (r: Result<(Store, Backend.Expense), Error>)
    ensures Authenticate(lib, req).Failure? ==> r == Failure(Authenticate(lib, req).error)
    ensures Authenticate(lib, req).Success? ==>
            var uid := Authenticate(lib, req).value;
            && (!OwnsExpense(s, id, uid) ==> r == Failure(ExpenseNotFound))
            && (OwnsExpense(s, id, uid) ==> r == UpdateOwnedChecked(lib, s, uid, id, data))
  {
    var uid :- Authenticate(lib, req);
    if !OwnsExpense(s, id, uid) then Failure(ExpenseNotFound) else UpdateOwnedChecked(lib, s, uid, id, data)
  }

  /** The corrected update after the ownership check. */
  function UpdateOwnedChecked(lib: Lib, s: Store, uid: Id, id: Id, data: ExpenseUpdate)
    : (r: Result<(Store, Backend.Expense), Error>)
    requires OwnsExpense(s, id, uid)
    ensures var titleOk := data.title.Some? ==> Utf16Length(Trim(lib.isWhitespace, data.title.value)) >= MinTitleLength;
            var titleFree := data.title.Some? ==> !TitleTakenByOther(s, Trim(lib.isWhitespace, data.title.value), uid, id);
            var dateOk := data.date.Some? ==> lib.isValidDate(Trim(lib.isWhitespace, data.date.value));
            && (!titleOk ==> r == Failure(InvalidExpenseTitle))
            && (titleOk && !titleFree ==> r == Failure(DuplicatedExpenseTitle))
            && (titleOk && titleFree && !dateOk ==> r == Failure(InvalidDate))
            && (titleOk && titleFree && dateOk ==> r.Success?)
    ensures r.Success? ==>
            && r.value.1.id == s.expenses[id].id && r.value.1.owner == uid
            && r.value.1.title == (if data.title.Some? then Trim(lib.isWhitespace, data.title.value) else s.expenses[id].title)
            && r.value.1.description == data.description.GetOr(s.expenses[id].description)
            && r.value.1.amount == data.amount.GetOr(s.expenses[id].amount)
            && r.value.1.date == (if data.date.Some? then Trim(lib.isWhitespace, data.date.value) else s.expenses[id].date)
            && r.value.0 == s.(expenses := s.expenses[id := r.value.1])
    ensures r.Success? && Valid(s) ==> Valid(r.value.0)
  {
    var title :- CheckTitleExcept(lib, s, data.title, uid, id);
    var date :- SanitizeDateGiven(lib, data.date);
    var e := Apply(s.expenses[id], title, data, date);
    Success((Backend.ReplaceExpense(s, id, e), e))
  }

  /** The corrected update accepts an expense's own title, and changes nothing
      else when nothing else is given. */
  lemma UpdateCheckedAcceptsOwnTitle(lib: Lib, s: Store, req: Request, id: Id, title: string)
    requires TitlesUniquePerOwner(s)
    requires Authenticate(lib, req).Success? && OwnsExpense(s, id, Authenticate(lib, req).value)
    requires Trim(lib.isWhitespace, title) == s.expenses[id].title
    requires Utf16Length(s.expenses[id].title) >= MinTitleLength
    ensures UpdateExpenseChecked(lib, s, req, id, ExpenseUpdate(Some(title), None, None, None))
            == Success((s, s.expenses[id]))
  {
    UpdateOwnedCheckedAcceptsOwnTitle(lib, s, Authenticate(lib, req).value, id, title);
  }

  lemma UpdateOwnedCheckedAcceptsOwnTitle(lib: Lib, s: Store, uid: Id, id: Id, title: string)
    requires TitlesUniquePerOwner(s)
    requires OwnsExpense(s, id, uid)
    requires Trim(lib.isWhitespace, title) == s.expenses[id].title
    requires Utf16Length(s.expenses[id].title) >= MinTitleLength
    ensures UpdateOwnedChecked(lib, s, uid, id, ExpenseUpdate(Some(title), None, None, None))
            == Success((s, s.expenses[id]))
  {
    var before := s.expenses[id];
    var data := ExpenseUpdate(Some(title), None, None, None);
    assert !TitleTakenByOther(s, before.title, uid, id);
    assert CheckTitleExcept(lib, s, data.title, uid, id) == Success(Some(before.title));
    assert Apply(before, Some(before.title), data, None) == before;
    assert s.expenses[id := before] == s.expenses;
  }

  /** The corrected update keeps every owner's titles distinct. */
  lemma UpdateCheckedKeepsTitlesUnique(lib: Lib, s: Store, req: Request, id: Id, data: ExpenseUpdate)
    requires TitlesUniquePerOwner(s)
    requires UpdateExpenseChecked(lib, s, req, id, data).Success?
    ensures TitlesUniquePerOwner(UpdateExpenseChecked(lib, s, req, id, data).value.0)
  {
    var r := UpdateExpenseChecked(lib, s, req, id, data);
    var e := r.value.1;
    if data.title.None? {
      assert !TitleTakenByOther(s, s.expenses[id].title, s.expenses[id].owner, id);
    }
    PutKeepsTitlesUnique(s, r.value.0, id, e);
  }

  // ---------------------------------------------------------------------------
  // signIn dereferences the lookup result without checking it, and does not trim
  // the password although signUp hashed the trimmed one.

  /** As written, an unknown email does not produce "Account not found.": the
      resolver crashes on `user.password`, and the crash has no `path`, so the
      wrapper passes the runtime error's own text to the caller. */
  lemma SignInUnknownEmailCrashes(lib: Lib, s: Store, email: string, password: string)
    requires Valid(s) && !EmailTaken(s, email)
    ensures UserMutations.SignIn(lib, s, email, password) == Failure(NullDereference("password"))
    ensures Surface(UserMutations.SignIn(lib, s, email, password)) == Failure(NullDereference("password"))
    ensures Message(NullDereference("password")) != Message(UserNotFound)
  {
    assert |Message(NullDereference("password"))| == 39;
    assert |Message(UserNotFound)| == 18;
  }

  /** As written, a user who signed up with a password that has surrounding
      whitespace cannot sign in with that same password: the stored hash is of the
      trimmed text, the comparison uses the raw text. This holds for passwords
      within bcrypt's 72-byte input that hold no U+0000. */
  lemma PaddedPasswordLocksOutOwner(lib: Lib, s: Store, data: SignUpInput)
    requires ExactMatch(lib)
    requires Valid(s) && EmailsUnique(s)
    requires SignUp(lib, s, data).Success?
    requires Trim(lib.isWhitespace, data.password) != data.password
    requires Utf8Length(data.password) <= BcryptMaxBytes && '\0' !in data.password
    ensures UserMutations.SignIn(lib, SignUp(lib, s, data).value.0, data.email, data.password)
            == Failure(InvalidCredentials)
  {
    var (s', p) := SignUp(lib, s, data).value;
    var u := p.user;
    assert s'.users[u.id] == u;
    assert EmailTaken(s', data.email);
    TrimUtf8Length(lib.isWhitespace, data.password);
    TrimInfix(lib.isWhitespace, data.password);
    assert !lib.matches(data.password, u.password);
  }

  /** `signIn` that answers an unknown email with `UserNotFound` and compares the
      trimmed password, as `signUp` hashed it. */
  function SignInChecked(lib: Lib, s: Store, email: string, password: string)
    : (r: Result<(Store, AuthPayload), Error>)
    ensures r.Success? ==>
            && r.value.0 == s
            && r.value.1.user in s.users.Values && r.value.1.user.email == email
            && lib.matches(Trim(lib.isWhitespace, password), r.value.1.user.password)
            && r.value.1.token == lib.token(r.value.1.user.id)
    ensures r.Failure? ==> r.error == UserNotFound || r.error == InvalidCredentials
    ensures Valid(s) ==> (r == Failure(UserNotFound) <==> !EmailTaken(s, email))
    ensures Valid(s) && EmailsUnique(s) ==>
            forall k :: k in s.users && s.users[k].email == email ==>
              && (r.Success? <==> lib.matches(Trim(lib.isWhitespace, password), s.users[k].password))
              && (r.Success? ==> r.value.1.user == s.users[k])
  {
    match UserByEmail(s, email)
    case None => Failure(UserNotFound)
    case Some(user) =>
      if !lib.matches(Trim(lib.isWhitespace, password), user.password) then Failure(InvalidCredentials)
      else Success((s, AuthPayload(user, lib.token(user.id))))
  }

  /** Signing up and then signing in with the same email and password yields the
      same user and token, surrounding whitespace in the password included. */
  lemma SignUpThenSignIn(lib: Lib, s: Store, data: SignUpInput)
    requires Sound(lib)
    requires Valid(s) && EmailsUnique(s)
    requires SignUp(lib, s, data).Success?
    ensures SignInChecked(lib, SignUp(lib, s, data).value.0, data.email, data.password)
            == SignUp(lib, s, data)
    ensures var p := SignInChecked(lib, SignUp(lib, s, data).value.0, data.email, data.password).value.1;
            lib.verify(p.token) == Success(SignUp(lib, s, data).value.1.user.id)
  {
    var (s', p) := SignUp(lib, s, data).value;
    var u := p.user;
    assert s'.users[u.id] == u;
    assert lib.matches(Trim(lib.isWhitespace, data.password), u.password);
  }

  /** The corrected `signIn` reports an unknown email as "Account not found.". */
  lemma SignInCheckedUnknownEmail(lib: Lib, s: Store, email: string, password: string)
    requires Valid(s) && !EmailTaken(s, email)
    ensures Surface(SignInChecked(lib, s, email, password)) == Failure(UserNotFound)
    ensures Message(Surface(SignInChecked(lib, s, email, password)).error) == "Account not found."
  {
  }

  // ---------------------------------------------------------------------------
  // updateUser and deleteUser have no userExists guard.

  /** As written, updating an account that no longer exists reaches the backend
      write, whose failure carries a `path` and so surfaces as `InternalError`. */
  lemma UpdateUserOnDeletedAccount(lib: Lib, s: Store, req: Request, data: UserUpdate)
    requires Authenticate(lib, req).Success? && Authenticate(lib, req).value !in s.users
    requires CheckNewEmail(lib, s, data.email, Authenticate(lib, req).value).Success?
    requires HashIfGiven(lib, data.password).Success?
    ensures Surface(UserMutations.UpdateUser(lib, s, req, data)) == Failure(InternalError)
    ensures Message(InternalError) != Message(UserNotFound)
  {
    assert |Message(InternalError)| != |Message(UserNotFound)| by {
      MessageHasLength(InternalError);
      MessageHasLength(UserNotFound);
    }
  }

  /** As written, deleting an account that no longer exists surfaces as `InternalError`. */
  lemma DeleteUserOnDeletedAccount(lib: Lib, s: Store, req: Request)
    requires Authenticate(lib, req).Success? && Authenticate(lib, req).value !in s.users
    ensures Surface(UserMutations.DeleteUser(lib, s, req)) == Failure(InternalError)
  {
  }

  /** `updateUser` with the `userExists` guard right after authentication. */
  function UpdateUserChecked(lib: Lib, s: Store, req: Request, data: UserUpdate): (r: Result<(Store, User), Error>)
    ensures Authenticate(lib, req).Failure? ==> r == Failure(Authenticate(lib, req).error)
    ensures Authenticate(lib, req).Success? && Authenticate(lib, req).value !in s.users ==> r == Failure(UserNotFound)
    ensures Authenticate(lib, req).Success? && Authenticate(lib, req).value in s.users ==>
            r == UserMutations.UpdateUser(lib, s, req, data)
    ensures r.Failure? ==> !HasPath(r.error)
  {
    var uid :- Authenticate(lib, req);
    var _ :- UserExists(s, uid);
    UserMutations.UpdateUser(lib, s, req, data)
  }

  /** `deleteUser` with the `userExists` guard right after authentication. */
  function DeleteUserChecked(lib: Lib, s: Store, req: Request): (r: Result<(Store, User), Error>)
    ensures Authenticate(lib, req).Failure? ==> r == Failure(Authenticate(lib, req).error)
    ensures Authenticate(lib, req).Success? && Authenticate(lib, req).value !in s.users ==> r == Failure(UserNotFound)
    ensures Authenticate(lib, req).Success? && Authenticate(lib, req).value in s.users ==>
            r == UserMutations.DeleteUser(lib, s, req)
    ensures r.Failure? ==> !HasPath(r.error)
  {
    var uid :- Authenticate(lib, req);
    var _ :- UserExists(s, uid);
    UserMutations.DeleteUser(lib, s, req)
  }

  /** With the guard, every failure reaches the caller unchanged: a deleted
      account is reported as "Account not found." by both mutations. */
  lemma CheckedUserMutationsReportDeletedAccount(lib: Lib, s: Store, req: Request, data: UserUpdate)
    requires Authenticate(lib, req).Success? && Authenticate(lib, req).value !in s.users
    ensures Surface(UpdateUserChecked(lib, s, req, data)) == Failure(UserNotFound)
    ensures Surface(DeleteUserChecked(lib, s, req)) == Failure(UserNotFound)
  {
  }

  /** Deleting an account, then reusing its token: the token still authenticates,
      `me` reports the account missing, the corrected `deleteUser` does too, and no
      expense of the account is left. */
  lemma DeleteThenReuseToken(lib: Lib, s: Store, req: Request)
    requires Valid(s)
    requires DeleteUserChecked(lib, s, req).Success?
    ensures var s' := DeleteUserChecked(lib, s, req).value.0;
            var uid := Authenticate(lib, req).value;
            && Me(lib, s', req) == Failure(UserNotFound)
            && DeleteUserChecked(lib, s', req) == Failure(UserNotFound)
            && forall k :: k in s'.expenses ==> s'.expenses[k].owner != uid
  {
  }
}

=== FILE: password.dfy ===
/** `hashPassword`: a length policy on the trimmed password in front of bcrypt. */
module Password {
  import opened Wrappers
  import opened Strings
  import opened Errors
  import opened External

  /** The shortest password accepted, after trimming, in UTF-16 code units. */
  const MinPasswordLength: nat := 8

  /** The hash of the trimmed password, when it is long enough. */
  function HashPassword(lib: Lib, password: string): (r: Result<string, Error>)
    ensures r.Success? <==> Utf16Length(Trim(lib.isWhitespace, password)) >= MinPasswordLength
    ensures r.Failure? ==> r.error == InvalidPassword
    ensures r.Success? ==> r.value == lib.hash(Trim(lib.isWhitespace, password))
    ensures r.Success? && Sound(lib) ==> lib.matches(Trim(lib.isWhitespace, password), r.value)
  {
    var p := Trim(lib.isWhitespace, password);
    if Utf16Length(p) < MinPasswordLength then Failure(InvalidPassword) else Success(lib.hash(p))
  }

  /** A short password padded with whitespace is still rejected. */
  lemma PaddedShortPasswordRejected(lib: Lib, a: string, password: string, b: string)
    requires AllWs(lib.isWhitespace, a) && AllWs(lib.isWhitespace, b)
    requires Utf16Length(password) < MinPasswordLength
    ensures HashPassword(lib, a + password + b) == Failure(InvalidPassword)
  {
    TrimPadding(lib.isWhitespace, a, password, b);
    TrimUtf16Length(lib.isWhitespace, password);
  }

  /** A trimmed password of exactly eight characters is accepted. */
  lemma EightCharacterPasswordAccepted(lib: Lib, password: string)
    requires Trimmed(lib.isWhitespace, password) && |password| == MinPasswordLength
    ensures HashPassword(lib, password) == Success(lib.hash(password))
  {
    TrimFixedIff(lib.isWhitespace, password);
  }

  /** Four characters above U+FFFF make a password of JavaScript length eight,
      which is accepted. */
  lemma FourAstralCharacterPasswordAccepted(lib: Lib, password: string)
    requires Trimmed(lib.isWhitespace, password) && |password| == 4
    requires forall i :: 0 <= i < |password| ==> password[i] as int > 0xFFFF
    ensures HashPassword(lib, password) == Success(lib.hash(password))
  {
    TrimFixedIff(lib.isWhitespace, password);
  }

  /** Whitespace around a password is not part of what gets hashed. */
  lemma HashIgnoresPadding(lib: Lib, a: string, password: string, b: string)
    requires AllWs(lib.isWhitespace, a) && AllWs(lib.isWhitespace, b)
    ensures HashPassword(lib, a + password + b) == HashPassword(lib, password)
  {
    TrimPadding(lib.isWhitespace, a, password, b);
  }

  /** The message of `InvalidPassword` states the threshold `hashPassword` enforces. */
  lemma InvalidPasswordMessageStatesThreshold()
    ensures Message(InvalidPassword)
      == "Please provide a password with at least " + [('0' as int + MinPasswordLength) as char] + " characters."
  {
  }
}

=== FILE: sanitize.dfy ===
/** `expenseTitleSanitize` and `expenseDateSanitize`: trim, then validate. */
module Sanitize {
  import opened Wrappers
  import opened Strings
  import opened Errors
  import opened External

  /** The shortest title the sanitiser accepts, after trimming, in UTF-16 code units. */
  const MinTitleLength: nat := 2

  /** The trimmed title when its JavaScript `length` is at least `MinTitleLength`. */
  function SanitizeTitle(lib: Lib, title: string): (r: Result<string, Error>)
    ensures r.Success? <==> Utf16Length(Trim(lib.isWhitespace, title)) >= MinTitleLength
    ensures r.Failure? ==> r.error == InvalidExpenseTitle
    ensures r.Success? ==> r.value == Trim(lib.isWhitespace, title)
    ensures r.Success? ==> Trimmed(lib.isWhitespace, r.value) && Utf16Length(r.value) >= MinTitleLength
  {
    var t := Trim(lib.isWhitespace, title);
    if Utf16Length(t) < MinTitleLength then Failure(InvalidExpenseTitle) else Success(t)
  }

  /** The trimmed date when the date library accepts it; the text is kept as is. */
  function SanitizeDate(lib: Lib, date: string): (r: Result<string, Error>)
    ensures r.Success? <==> lib.isValidDate(Trim(lib.isWhitespace, date))
    ensures r.Failure? ==> r.error == InvalidDate
    ensures r.Success? ==> r.value == Trim(lib.isWhitespace, date)
    ensures r.Success? ==> Trimmed(lib.isWhitespace, r.value) && lib.isValidDate(r.value)
  {
    var d := Trim(lib.isWhitespace, date);
    if !lib.isValidDate(d) then Failure(InvalidDate) else Success(d)
  }

  /** A one-character title is accepted only when the character is not whitespace
      and lies above U+FFFF, where JavaScript counts it as two code units; "a" is
      rejected. */
  lemma SingleCharacterTitle(lib: Lib, c: char)
    ensures SanitizeTitle(lib, [c])
         == if c as int > 0xFFFF && !lib.isWhitespace(c) then Success([c]) else Failure(InvalidExpenseTitle)
  {
    TrimFixedIff(lib.isWhitespace, [c]);
  }

  /** Sanitising an accepted title again returns it unchanged. */
  lemma SanitizeTitleIdempotent(lib: Lib, title: string)
    requires SanitizeTitle(lib, title).Success?
    ensures SanitizeTitle(lib, SanitizeTitle(lib, title).value) == SanitizeTitle(lib, title)
  {
    TrimIdempotent(lib.isWhitespace, title);
  }

  /** Surrounding whitespace changes neither whether a title is accepted nor the result. */
  lemma SanitizeTitleIgnoresPadding(lib: Lib, a: string, title: string, b: string)
    requires AllWs(lib.isWhitespace, a) && AllWs(lib.isWhitespace, b)
    ensures SanitizeTitle(lib, a + title + b) == SanitizeTitle(lib, title)
  {
    TrimPadding(lib.isWhitespace, a, title, b);
  }

  /** Sanitising an accepted date again returns it unchanged. */
  lemma SanitizeDateIdempotent(lib: Lib, date: string)
    requires SanitizeDate(lib, date).Success?
    ensures SanitizeDate(lib, SanitizeDate(lib, date).value) == SanitizeDate(lib, date)
  {
    TrimIdempotent(lib.isWhitespace, date);
  }

  /** The date is not normalised: an accepted date that is already trimmed is
      returned character for character. */
  lemma SanitizeDateVerbatim(lib: Lib, date: string)
    requires Trimmed(lib.isWhitespace, date) && lib.isValidDate(date)
    ensures SanitizeDate(lib, date) == Success(date)
  {
    TrimFixedIff(lib.isWhitespace, date);
  }

  /** The message of `InvalidExpenseTitle` states the threshold the sanitiser enforces. */
  lemma InvalidTitleMessageStatesThreshold()
    ensures Message(InvalidExpenseTitle)
      == "Please provide a expense title with at least " + [('0' as int + MinTitleLength) as char] + " characters."
  {
  }
}

=== FILE: scenarios.dfy ===
/** Properties that span several resolvers: what one request leaves behind and
    what a later request then observes. */
module Scenarios {
  import opened Wrappers
  import opened Strings
  import opened Errors
  import opened External
  import opened Backend
  import opened Sanitize
  import opened Auth
  import opened UserMutations
  import opened UserQueries
  import opened ExpenseMutations
  import opened ExpenseQueries
  import opened Findings

  /** A second sign-up with an email that an earlier sign-up took is refused,
      whatever name and password it carries. */
  lemma SecondSignUpSameEmailRejected(lib: Lib, s: Store, first: SignUpInput, second: SignUpInput)
    requires SignUp(lib, s, first).Success?
    requires second.email == first.email
    ensures SignUp(lib, SignUp(lib, s, first).value.0, second) == Failure(EmailInUse)
  {
    var (s', p) := SignUp(lib, s, first).value;
    assert s'.users[p.user.id].email == second.email;
  }

  /** The token `signUp` returns authenticates `me` as the new user. */
  lemma SignUpThenMe(lib: Lib, s: Store, data: SignUpInput)
    requires Sound(lib) && Valid(s)
    requires SignUp(lib, s, data).Success?
    ensures var (s', p) := SignUp(lib, s, data).value;
            Me(lib, s', BearerRequest(p.token)) == Success((s', p.user))
  {
    var (s', p) := SignUp(lib, s, data).value;
    BearerTokenRoundTrip(lib, p.user.id, true);
  }

  /** An expense created by a caller is what `expense(id)` then returns to that
      caller, with `createExpense` as written and as corrected. */
  lemma CreateThenFetch(lib: Lib, s: Store, req: Request, data: ExpenseInput)
    requires Valid(s)
    ensures var r := ExpenseMutations.CreateExpense(lib, s, req, data);
            r.Success? ==> ExpenseQueries.ExpenseById(lib, r.value.0, req, r.value.1.id) == Success(r.value)
    ensures var r := CreateExpenseChecked(lib, s, req, data);
            r.Success? ==> ExpenseQueries.ExpenseById(lib, r.value.0, req, r.value.1.id) == Success(r.value)
  {
  }

  /** Another user's expense is invisible: `expense`, `updateExpense` and
      `deleteExpense` all answer `ExpenseNotFound` and change nothing. */
  lemma OtherOwnersExpenseHidden(lib: Lib, s: Store, req: Request, id: Id, data: ExpenseUpdate)
    requires Authenticate(lib, req).Success?
    requires id in s.expenses && s.expenses[id].owner != Authenticate(lib, req).value
    ensures ExpenseQueries.ExpenseById(lib, s, req, id) == Failure(ExpenseNotFound)
    ensures ExpenseMutations.UpdateExpense(lib, s, req, id, data) == Failure(ExpenseNotFound)
    ensures UpdateExpenseChecked(lib, s, req, id, data) == Failure(ExpenseNotFound)
    ensures DeleteExpense(lib, s, req, id) == Failure(ExpenseNotFound)
  {
  }

  /** A title used only by other users' expenses does not block creating an
      expense with that title. */
  lemma OtherOwnersTitlesDoNotBlock(lib: Lib, s: Store, req: Request, data: ExpenseInput)
    requires Valid(s)
    requires Authenticate(lib, req).Success? && Authenticate(lib, req).value in s.users
    requires Utf16Length(Trim(lib.isWhitespace, data.title)) >= MinTitleLength
    requires lib.isValidDate(Trim(lib.isWhitespace, data.date))
    requires forall k :: k in s.expenses && s.expenses[k].owner == Authenticate(lib, req).value
               ==> s.expenses[k].title != data.title && s.expenses[k].title != Trim(lib.isWhitespace, data.title)
    ensures ExpenseMutations.CreateExpense(lib, s, req, data).Success?
    ensures CreateExpenseChecked(lib, s, req, data).Success?
  {
  }

  /** `updateUser` lets callers resubmit their own email. */
  lemma UpdateUserKeepsOwnEmail(lib: Lib, s: Store, uid: Id)
    requires EmailsUnique(s)
    requires uid in s.users && lib.isEmail(s.users[uid].email)
    ensures CheckNewEmail(lib, s, Some(s.users[uid].email), uid) == Success(())
  {
  }
}

=== FILE: seqs.dfy ===
/** Sequence helpers for the list query: filtering and Prisma's `skip`/`first` paging. */
module Seqs {
  import opened Wrappers

  function Min(a: int, b: int): int
  {
    if a <= b then a else b
  }

  /** The elements of `xs` satisfying `p`, in their original order. */
  function Filter<T(!new)>(p: T -> bool, xs: seq<T>): (r: seq<T>)
    ensures |r| <= |xs|
    ensures forall x :: x in r <==> x in xs && p(x)
    ensures (forall x :: x in xs ==> !p(x)) ==> r == []
  {
    if xs == [] then []
    else
      var tail := Filter(p, xs[1..]);
      assert forall x :: x in xs <==> x == xs[0] || x in xs[1..];
      if p(xs[0]) then [xs[0]] + tail else tail
  }

  /** Filtering distributes over concatenation: it keeps the order of the input
      and every occurrence of a kept element. */
  lemma {:induction false} FilterConcat<T(!new)>(p: T -> bool, a: seq<T>, b: seq<T>)
    ensures Filter(p, a + b) == Filter(p, a) + Filter(p, b)
  {
    if a == [] {
      assert a + b == b;
    } else {
      assert (a + b)[1..] == a[1..] + b;
      FilterConcat(p, a[1..], b);
    }
  }

  /** The keys of `xs` strictly increase along the list. */
  predicate IncreasingBy<T>(key: T -> int, xs: seq<T>)
  {
    forall i, j :: 0 <= i < j < |xs| ==> key(xs[i]) < key(xs[j])
  }

  /** Filtering a list whose keys strictly increase and exceed `lo` keeps both
      properties. */
  lemma {:induction false} FilterAbove<T(!new)>(p: T -> bool, key: T -> int, xs: seq<T>, lo: int)
    requires IncreasingBy(key, xs) && forall i :: 0 <= i < |xs| ==> lo < key(xs[i])
    ensures var r := Filter(p, xs);
            IncreasingBy(key, r) && forall i :: 0 <= i < |r| ==> lo < key(r[i])
  {
    if xs != [] {
      var rest := xs[1..];
      assert IncreasingBy(key, rest) && forall i :: 0 <= i < |rest| ==> key(xs[0]) < key(rest[i]) by {
        assert forall i :: 0 <= i < |rest| ==> rest[i] == xs[i + 1];
      }
      FilterAbove(p, key, rest, key(xs[0]));
      var tail := Filter(p, rest);
      if p(xs[0]) {
        var r := [xs[0]] + tail;
        assert Filter(p, xs) == r;
        forall i | 0 <= i < |r|
          ensures lo < key(r[i])
        {
          if i > 0 {
            assert r[i] == tail[i - 1];
          }
        }
        forall i, j | 0 <= i < j < |r|
          ensures key(r[i]) < key(r[j])
        {
          assert r[j] == tail[j - 1];
          if i > 0 {
            assert r[i] == tail[i - 1];
          }
        }
      } else {
        assert Filter(p, xs) == tail;
      }
    }
  }

  /** A list whose keys strictly increase still has strictly increasing keys
      after filtering. */
  lemma FilterKeepsIncreasing<T(!new)>(p: T -> bool, key: T -> int, xs: seq<T>)
    ensures IncreasingBy(key, xs) ==> IncreasingBy(key, Filter(p, xs))
  {
    if xs != [] && IncreasingBy(key, xs) {
      FilterAbove(p, key, xs, key(xs[0]) - 1);
    }
  }

  /** Prisma's paging: drop the first `skip` elements, then keep at most `first`.
      An absent argument imposes nothing. */
  function Page<T(!new)>(xs: seq<T>, skip: Option<nat>, first: Option<nat>): (r: seq<T>)
    ensures forall x :: x in r ==> x in xs
    ensures var k := Min(skip.GetOr(0), |xs|);
      && |r| == (if first.Some? then Min(first.value, |xs| - k) else |xs| - k)
      && forall i :: 0 <= i < |r| ==> r[i] == xs[k + i]
  {
    var rest := xs[Min(skip.GetOr(0), |xs|)..];
    if first.Some? && first.value < |rest| then rest[..first.value] else rest
  }

  /** A page of a list whose keys strictly increase has strictly increasing keys. */
  lemma PageKeepsIncreasing<T(!new)>(key: T -> int, xs: seq<T>, skip: Option<nat>, first: Option<nat>)
    ensures IncreasingBy(key, xs) ==> IncreasingBy(key, Page(xs, skip, first))
  {
    if IncreasingBy(key, xs) {
      var rest := xs[Min(skip.GetOr(0), |xs|)..];
      assert IncreasingBy(key, rest);
      if first.Some? && first.value < |rest| {
        assert IncreasingBy(key, rest[..first.value]);
      }
    }
  }
}

=== FILE: strings.dfy ===
/** The string operations the resolvers rely on: JavaScript's `String.prototype.trim`,
    `String.prototype.replace` with a string pattern, and Prisma's `title_contains`
    filter. Which characters count as whitespace is a parameter `ws`. */
module Strings {
  import opened Wrappers

  /** Every character of `s` is whitespace. */
  predicate AllWs(ws: char -> bool, s: string)
  {
    forall i :: 0 <= i < |s| ==> ws(s[i])
  }

  /** `s` neither starts nor ends with whitespace: what `trim` produces. */
  predicate Trimmed(ws: char -> bool, s: string)
  {
    s == [] || (!ws(s[0]) && !ws(s[|s| - 1]))
  }

  /** `s` with its leading whitespace removed (a suffix of `s`: `TrimStartSuffix`). */
  function TrimStart(ws: char -> bool, s: string): (r: string)
    ensures |r| <= |s|
    ensures AllWs(ws, s[..|s| - |r|])
    ensures r == [] || !ws(r[0])
    decreases |s|
  {
    if |s| > 0 && ws(s[0]) then
      var r := TrimStart(ws, s[1..]);
      assert s[..|s| - |r|] == [s[0]] + s[1..][..|s| - 1 - |r|];
      r
    else s
  }

  lemma {:induction false} TrimStartSuffix(ws: char -> bool, s: string)
    ensures TrimStart(ws, s) == s[|s| - |TrimStart(ws, s)|..]
    decreases |s|
  {
    if |s| > 0 && ws(s[0]) {
      TrimStartSuffix(ws, s[1..]);
    }
  }

  /** `s` with its trailing whitespace removed. */
  function TrimEnd(ws: char -> bool, s: string): (r: string)
    ensures |r| <= |s| && r == s[..|r|]
    ensures AllWs(ws, s[|r|..])
    ensures r == [] || !ws(r[|r| - 1])
    decreases |s|
  {
    if |s| > 0 && ws(s[|s| - 1]) then
      var r := TrimEnd(ws, s[..|s| - 1]);
      assert s[..|s| - 1][..|r|] == s[..|r|];
      assert s[|r|..] == s[..|s| - 1][|r|..] + [s[|s| - 1]];
      r
    else s
  }

  /** How many whitespace characters `trim` strips from the front of `s`. */
  function LeadingWs(ws: char -> bool, s: string): nat
  {
    |s| - |TrimStart(ws, s)|
  }

  /** JavaScript's `s.trim()`: `s` without its leading and trailing whitespace.
      `TrimInfix` states where the result sits inside `s`. */
  function Trim(ws: char -> bool, s: string): (r: string)
    ensures Trimmed(ws, r) && |r| <= |s|
  {
    var t := TrimStart(ws, s);
    var r := TrimEnd(ws, t);
    assert r == [] || r[0] == t[0];
    r
  }

  /** The trim of `s` is the infix of `s` left after stripping whitespace at both ends. */
  lemma TrimInfix(ws: char -> bool, s: string)
    ensures LeadingWs(ws, s) + |Trim(ws, s)| <= |s|
    ensures Trim(ws, s) == s[LeadingWs(ws, s)..LeadingWs(ws, s) + |Trim(ws, s)|]
    ensures AllWs(ws, s[..LeadingWs(ws, s)]) && AllWs(ws, s[LeadingWs(ws, s) + |Trim(ws, s)|..])
  {
    var t := TrimStart(ws, s);
    var r := TrimEnd(ws, t);
    TrimStartSuffix(ws, s);
    assert s[LeadingWs(ws, s) + |r|..] == t[|r|..];
  }

  lemma AllWsConcat(ws: char -> bool, a: string, b: string)
    requires AllWs(ws, a) && AllWs(ws, b)
    ensures AllWs(ws, a + b)
  {
  }

  lemma {:induction false} TrimStartSkips(ws: char -> bool, a: string, u: string)
    requires AllWs(ws, a)
    requires u == [] || !ws(u[0])
    ensures TrimStart(ws, a + u) == u
    decreases |a|
  {
    if a == [] {
      assert a + u == u;
    } else {
      assert (a + u)[0] == a[0];
      assert (a + u)[1..] == a[1..] + u;
      TrimStartSkips(ws, a[1..], u);
    }
  }

  lemma {:induction false} TrimEndSkips(ws: char -> bool, u: string, b: string)
    requires AllWs(ws, b)
    requires u == [] || !ws(u[|u| - 1])
    ensures TrimEnd(ws, u + b) == u
    decreases |b|
  {
    if b == [] {
      assert u + b == u;
    } else {
      assert (u + b)[|u + b| - 1] == b[|b| - 1];
      assert (u + b)[..|u + b| - 1] == u + b[..|b| - 1];
      TrimEndSkips(ws, u, b[..|b| - 1]);
    }
  }

  /** Trimming is determined by the decomposition: whitespace, a trimmed core, whitespace. */
  lemma {:induction false} TrimUnique(ws: char -> bool, a: string, t: string, b: string)
    requires AllWs(ws, a) && AllWs(ws, b)
    requires Trimmed(ws, t)
    ensures Trim(ws, a + t + b) == t
  {
    if t == [] {
      assert a + t + b == (a + b) + t;
      AllWsConcat(ws, a, b);
      TrimStartSkips(ws, a + b, t);
      TrimEndSkips(ws, t, []);
      assert t + [] == t;
    } else {
      assert a + t + b == a + (t + b);
      assert (t + b)[0] == t[0];
      TrimStartSkips(ws, a, t + b);
      TrimEndSkips(ws, t, b);
    }
  }

  /** Trimming an already trimmed string changes nothing. */
  lemma TrimIdempotent(ws: char -> bool, s: string)
    ensures Trim(ws, Trim(ws, s)) == Trim(ws, s)
  {
    var t := Trim(ws, s);
    assert [] + t + [] == t;
    TrimUnique(ws, [], t, []);
  }

  /** A string is its own trim exactly when it neither starts nor ends with whitespace. */
  lemma TrimFixedIff(ws: char -> bool, s: string)
    ensures Trim(ws, s) == s <==> Trimmed(ws, s)
  {
    if Trimmed(ws, s) {
      assert [] + s + [] == s;
      TrimUnique(ws, [], s, []);
    }
  }

  /** The pieces `trim` strips: whitespace before and after the trimmed core. */
  lemma TrimSplit(ws: char -> bool, s: string) returns (pre: string, post: string)
    ensures s == pre + Trim(ws, s) + post
    ensures AllWs(ws, pre) && AllWs(ws, post)
  {
    var t := Trim(ws, s);
    var k := LeadingWs(ws, s);
    TrimInfix(ws, s);
    pre, post := s[..k], s[k + |t|..];
    assert s == s[..k] + s[k..k + |t|] + s[k + |t|..];
  }

  lemma Regroup(a: string, pre: string, t: string, post: string, b: string)
    ensures a + (pre + t + post) + b == (a + pre) + t + (post + b)
  {
  }

  /** Whitespace added around a string does not change its trim. */
  lemma TrimPadding(ws: char -> bool, a: string, s: string, b: string)
    requires AllWs(ws, a) && AllWs(ws, b)
    ensures Trim(ws, a + s + b) == Trim(ws, s)
  {
    var t := Trim(ws, s);
    var pre, post := TrimSplit(ws, s);
    Regroup(a, pre, t, post, b);
    AllWsConcat(ws, a, pre);
    AllWsConcat(ws, post, b);
    TrimUnique(ws, a + pre, t, post + b);
  }

  /** The UTF-16 code units `c` takes: a code point above U+FFFF is a surrogate pair. */
  function Utf16Units(c: char): nat
  {
    if c as int > 0xFFFF then 2 else 1
  }

  /** The bytes `c` takes in UTF-8. */
  function Utf8Units(c: char): nat
  {
    if c as int < 0x80 then 1 else if c as int < 0x800 then 2 else if c as int < 0x1_0000 then 3 else 4
  }

  /** JavaScript's `length`: the number of UTF-16 code units of `s`, which is the
      number of characters only when none lies above U+FFFF. */
  function Utf16Length(s: string): (n: nat)
    ensures |s| <= n <= 2 * |s|
    ensures n == |s| <==> forall i :: 0 <= i < |s| ==> s[i] as int <= 0xFFFF
    ensures n == 2 * |s| <==> forall i :: 0 <= i < |s| ==> s[i] as int > 0xFFFF
  {
    if s == [] then 0 else Utf16Units(s[0]) + Utf16Length(s[1..])
  }

  /** The number of bytes of `s` in UTF-8, the encoding bcrypt hashes. */
  function Utf8Length(s: string): (n: nat)
    ensures |s| <= n <= 4 * |s|
    ensures n == |s| <==> forall i :: 0 <= i < |s| ==> s[i] as int < 0x80
  {
    if s == [] then 0 else Utf8Units(s[0]) + Utf8Length(s[1..])
  }

  lemma {:induction false} Utf16LengthConcat(a: string, b: string)
    ensures Utf16Length(a + b) == Utf16Length(a) + Utf16Length(b)
  {
    if a != [] {
      assert (a + b)[1..] == a[1..] + b;
      Utf16LengthConcat(a[1..], b);
    } else {
      assert a + b == b;
    }
  }

  lemma {:induction false} Utf8LengthConcat(a: string, b: string)
    ensures Utf8Length(a + b) == Utf8Length(a) + Utf8Length(b)
  {
    if a != [] {
      assert (a + b)[1..] == a[1..] + b;
      Utf8LengthConcat(a[1..], b);
    } else {
      assert a + b == b;
    }
  }

  /** Trimming never makes a string longer in UTF-16. */
  lemma TrimUtf16Length(ws: char -> bool, s: string)
    ensures Utf16Length(Trim(ws, s)) <= Utf16Length(s)
  {
    var pre, post := TrimSplit(ws, s);
    Utf16LengthConcat(pre + Trim(ws, s), post);
    Utf16LengthConcat(pre, Trim(ws, s));
  }

  /** Trimming never makes a string longer in UTF-8. */
  lemma TrimUtf8Length(ws: char -> bool, s: string)
    ensures Utf8Length(Trim(ws, s)) <= Utf8Length(s)
  {
    var pre, post := TrimSplit(ws, s);
    Utf8LengthConcat(pre + Trim(ws, s), post);
    Utf8LengthConcat(pre, Trim(ws, s));
  }

  /** `pat` occurs in `s` starting at index `i`. */
  predicate OccursAt(s: string, pat: string, i: nat)
  {
    i + |pat| <= |s| && s[i..i + |pat|] == pat
  }

  /** Prisma's `_contains` string filter: `sub` occurs somewhere in `s`. */
  predicate Contains(s: string, sub: string)
  {
    exists i :: 0 <= i <= |s| - |sub| && OccursAt(s, sub, i)
  }

  /** The first index at or after `from` where `pat` occurs, if there is one. */
  function IndexOfFrom(s: string, pat: string, from: nat): (r: Option<nat>)
    ensures r.Some? ==> from <= r.value && OccursAt(s, pat, r.value)
    ensures r.Some? ==> forall j: nat :: from <= j < r.value ==> !OccursAt(s, pat, j)
    ensures r.None? ==> forall j: nat :: from <= j ==> !OccursAt(s, pat, j)
    decreases |s| - from
  {
    if from + |pat| > |s| then None
    else if OccursAt(s, pat, from) then Some(from)
    else IndexOfFrom(s, pat, from + 1)
  }

  /** JavaScript's `s.replace(pat, "")` with a string pattern: only the FIRST
      occurrence of `pat` is removed, wherever it is; without one `s` is unchanged. */
  function RemoveFirst(s: string, pat: string): (r: string)
    ensures !Contains(s, pat) ==> r == s
  {
    match IndexOfFrom(s, pat, 0)
    case None => s
    case Some(i) => s[..i] + s[i + |pat|..]
  }

  /** When the first occurrence of `pat` is at `i`, exactly that occurrence is
      removed and the text on either side is kept. */
  lemma RemoveFirstAt(s: string, pat: string, i: nat)
    requires OccursAt(s, pat, i) && forall j: nat :: j < i ==> !OccursAt(s, pat, j)
    ensures RemoveFirst(s, pat) == s[..i] + s[i + |pat|..]
  {
  }

  /** Removing the first occurrence of a prefix strips exactly that prefix,
      even when the rest contains the pattern again. */
  lemma RemoveLeadingOccurrence(pat: string, t: string)
    ensures RemoveFirst(pat + t, pat) == t
  {
    var s := pat + t;
    assert s[0..|pat|] == pat;
    assert OccursAt(s, pat, 0);
    assert s[..0] + s[|pat|..] == t;
    RemoveFirstAt(s, pat, 0);
  }
}

=== FILE: user_mutations.dfy ===
/** The user mutations: `signUp`, `signIn`, `updateUser`, `deleteUser`. */
module UserMutations {
  import opened Wrappers
  import opened Strings
  import opened Errors
  import opened External
  import opened Backend
  import opened Password
  import opened Auth

  datatype SignUpInput = SignUpInput(name: string, email: string, password: string)

  /** `updateUser`'s `data`: a field is either given or absent. */
  datatype UserUpdate = UserUpdate(name: Option<string>, email: Option<string>, password: Option<string>)

  datatype AuthPayload = AuthPayload(user: User, token: string)

  /** `signUp`: email format, then email uniqueness, then the password policy;
      on success one user is added and a token for it is returned. */
  function SignUp(lib: Lib, s: Store, data: SignUpInput): (r: Result<(Store, AuthPayload), Error>)
    ensures !lib.isEmail(data.email) ==> r == Failure(InvalidEmail)
    ensures lib.isEmail(data.email) && EmailTaken(s, data.email) ==> r == Failure(EmailInUse)
    ensures (lib.isEmail(data.email) && !EmailTaken(s, data.email)
             && Utf16Length(Trim(lib.isWhitespace, data.password)) < MinPasswordLength) ==> r == Failure(InvalidPassword)
    ensures r.Success? <==>
            lib.isEmail(data.email) && !EmailTaken(s, data.email)
            && Utf16Length(Trim(lib.isWhitespace, data.password)) >= MinPasswordLength
    ensures r.Success? ==>
            var (s', p) := r.value;
            && p.user.name == data.name && p.user.email == data.email
            && p.user.password == lib.hash(Trim(lib.isWhitespace, data.password))
            && s'.users == s.users[p.user.id := p.user] && s'.expenses == s.expenses
            && p.token == lib.token(p.user.id)
            && (Sound(lib) ==> lib.verify(p.token) == Success(p.user.id))
            && (Valid(s) ==> p.user.id !in s.users && Valid(s'))
            && (EmailsUnique(s) ==> EmailsUnique(s'))
  {
    if !lib.isEmail(data.email) then Failure(InvalidEmail)
    else if EmailTaken(s, data.email) then Failure(EmailInUse)
    else
      var hashed :- HashPassword(lib, data.password);
      var (s', user) := InsertUser(s, data.name, data.email, hashed);
      Success((s', AuthPayload(user, lib.token(user.id))))
  }

  /** `signIn` as written: it reads `user.password` without checking that the
      lookup found anyone, and compares the password without trimming it. */
  function SignIn(lib: Lib, s: Store, email: string, password: string): (r: Result<(Store, AuthPayload), Error>)
    ensures r.Success? ==>
            && r.value.0 == s
            && r.value.1.user in s.users.Values && r.value.1.user.email == email
            && lib.matches(password, r.value.1.user.password)
            && r.value.1.token == lib.token(r.value.1.user.id)
    ensures r.Failure? ==> r.error == NullDereference("password") || r.error == InvalidCredentials
    ensures Valid(s) ==> (r == Failure(NullDereference("password")) <==> !EmailTaken(s, email))
    ensures Valid(s) && EmailsUnique(s) ==>
            forall k :: k in s.users && s.users[k].email == email ==>
              (r.Success? <==> lib.matches(password, s.users[k].password))
  {
    match UserByEmail(s, email)
    case None => Failure(NullDereference("password"))
    case Some(user) =>
      if !lib.matches(password, user.password) then Failure(InvalidCredentials)
      else Success((s, AuthPayload(user, lib.token(user.id))))
  }

  /** The email checks `updateUser` runs when an email is given. */
  function CheckNewEmail(lib: Lib, s: Store, email: Option<string>, uid: Id): (r: Result<(), Error>)
    ensures r.Success? <==> email.None? || (lib.isEmail(email.value) && !EmailTakenByOther(s, email.value, uid))
    ensures r.Failure? ==> r.error == (if !lib.isEmail(email.value) then InvalidEmail else EmailInUse)
  {
    if email.None? then Success(())
    else if !lib.isEmail(email.value) then Failure(InvalidEmail)
    else if EmailTakenByOther(s, email.value, uid) then Failure(EmailInUse)
    else Success(())
  }

  /** `hashPassword` applied only when a password is given. */
  function HashIfGiven(lib: Lib, password: Option<string>): (r: Result<Option<string>, Error>)
    ensures password.None? ==> r == Success(None)
    ensures password.Some? ==> (r.Success? <==> HashPassword(lib, password.value).Success?)
    ensures password.Some? && r.Success? ==> r.value == Some(HashPassword(lib, password.value).value)
    ensures r.Failure? ==> r.error == InvalidPassword
  {
    if password.None? then Success(None)
    else
      var hashed :- HashPassword(lib, password.value);
      Success(Some(hashed))
  }

  /** The backend's answer to a write whose `where` matches no record. */
  function NoRecord(operation: string): Error
  {
    BackendFailure([operation], "No record matches the where clause")
  }

  /** `updateUser` as written: no `userExists` guard; a missing account surfaces as
      a backend failure from the write. */
  function UpdateUser(lib: Lib, s: Store, req: Request, data: UserUpdate): (r: Result<(Store, User), Error>)
    ensures Authenticate(lib, req).Failure? ==> r == Failure(Authenticate(lib, req).error)
    ensures Authenticate(lib, req).Success? ==>
            var uid := Authenticate(lib, req).value;
            && (data.email.Some? && !lib.isEmail(data.email.value) ==> r == Failure(InvalidEmail))
            && (data.email.Some? && lib.isEmail(data.email.value) && EmailTakenByOther(s, data.email.value, uid)
                ==> r == Failure(EmailInUse))
            && ((CheckNewEmail(lib, s, data.email, uid).Success? && data.password.Some?
                 && Utf16Length(Trim(lib.isWhitespace, data.password.value)) < MinPasswordLength) ==> r == Failure(InvalidPassword))
            && (CheckNewEmail(lib, s, data.email, uid).Success? && HashIfGiven(lib, data.password).Success?
                ==> (r.Success? <==> uid in s.users) && (r.Failure? ==> HasPath(r.error)))
    ensures r.Success? ==>
            var uid := Authenticate(lib, req).value;
            var (s', u) := r.value;
            var before := s.users[uid];
            && uid in s.users
            && s'.users == s.users[uid := u] && s'.expenses == s.expenses && s'.nextId == s.nextId
            && u.id == before.id
            && u.name == data.name.GetOr(before.name)
            && u.email == data.email.GetOr(before.email)
            && u.password == (if data.password.Some? then lib.hash(Trim(lib.isWhitespace, data.password.value))
                              else before.password)
            && (Valid(s) ==> Valid(s'))
            && (EmailsUnique(s) ==> EmailsUnique(s'))
  {
    var uid :- Authenticate(lib, req);
    var _ :- CheckNewEmail(lib, s, data.email, uid);
    var password :- HashIfGiven(lib, data.password);
    if uid !in s.users then Failure(NoRecord("updateUser"))
    else
      var before := s.users[uid];
      var u := before.(name := data.name.GetOr(before.name),
                       email := data.email.GetOr(before.email),
                       password := password.GetOr(before.password));
      Success((s.(users := s.users[uid := u]), u))
  }

  /** `deleteUser` as written: no `userExists` guard; the user's expenses go with it. */
  function DeleteUser(lib: Lib, s: Store, req: Request): (r: Result<(Store, User), Error>)
    ensures Authenticate(lib, req).Failure? ==> r == Failure(Authenticate(lib, req).error)
    ensures Authenticate(lib, req).Success? ==>
            var uid := Authenticate(lib, req).value;
            && (r.Success? <==> uid in s.users)
            && (r.Failure? ==> HasPath(r.error))
    ensures r.Success? ==>
            var uid := Authenticate(lib, req).value;
            var (s', u) := r.value;
            && uid in s.users && u == s.users[uid]
            && s'.users == s.users - {uid}
            && (forall k :: k in s'.expenses <==> k in s.expenses && s.expenses[k].owner != uid)
            && (forall k :: k in s'.expenses ==> s'.expenses[k] == s.expenses[k])
            && (Valid(s) ==> Valid(s'))
  {
    var uid :- Authenticate(lib, req);
    if uid !in s.users then Failure(NoRecord("deleteUser"))
    else Success((DeleteUserCascade(s, uid), s.users[uid]))
  }
}

=== FILE: user_queries.dfy ===
/** The user query `me`. */
module UserQueries {
  import opened Wrappers
  import opened Errors
  import opened External
  import opened Backend
  import opened Validations
  import opened Auth

  /** `me`: authenticate, check that the account still exists, then read it. */
  function Me(lib: Lib, s: Store, req: Request): (r: Result<(Store, User), Error>)
    ensures Authenticate(lib, req).Failure? ==> r == Failure(Authenticate(lib, req).error)
    ensures Authenticate(lib, req).Success? ==>
            (r.Success? <==> Authenticate(lib, req).value in s.users)
            && (r.Failure? ==> r.error == UserNotFound)
    ensures r.Success? ==>
            && r.value.0 == s
            && r.value.1 == s.users[Authenticate(lib, req).value]
            && (Valid(s) ==> r.value.1.id == Authenticate(lib, req).value)
  {
    var uid :- Authenticate(lib, req);
    var _ :- UserExists(s, uid);
    Success((s, s.users[uid]))
  }
}

=== FILE: validations.dfy ===
/** `userExists`: the guard that the account a token names still exists. */
module Validations {
  import opened Wrappers
  import opened Errors
  import opened External
  import opened Backend

  /** Fails with `UserNotFound` unless a user has id `id`. */
  function UserExists(s: Store, id: Id): (r: Result<(), Error>)
    ensures r.Success? <==> id in s.users
    ensures r.Failure? ==> r.error == UserNotFound
  {
    if id in s.users then Success(()) else Failure(UserNotFound)
  }

  /** The guard's outcome depends only on whether `id` is a user id. */
  lemma UserExistsDependsOnlyOnPresence(s: Store, t: Store, id: Id)
    requires id in s.users <==> id in t.users
    ensures UserExists(s, id) == UserExists(t, id)
  {
  }
}

=== FILE: wrappers.dfy ===
/** Failure-compatible Option and Result types used by every resolver. */
module Wrappers {

  /** A value that may be absent: an optional GraphQL argument or a lookup miss. */
  datatype Option<+T> = None | Some(value: T) {

    /** The carried value, or `default` when absent. */
    function GetOr(default: T): T {
      match this
      case Some(v) => v
      case None => default
    }
  }

  /** Either a value or the error a resolver threw. Usable with `:-`. */
  datatype Result<+R, +E> = Success(value: R) | Failure(error: E) {

    predicate IsFailure() {
      Failure?
    }

    function PropagateFailure<U>(): Result<U, E>
      requires Failure?
    {
      Failure(error)
    }

    function Extract(): R
      requires Success?
    {
      value
    }
  }
}
